=== FILE: README.md ===
# fassoc-proxy, modelled in Dafny

fassoc-proxy is a Windows file-association proxy. It is registered as the
handler for file types. Given a target file, it picks a command from a
user-written JSON rule file and launches it through `CreateProcessA`.

This project models the two parts of the program that carry real logic:

- **Resolution** (`src/rules.rs`, plus the rule search in `src/main.rs`).
  A mapping is an ordered list of entry names, keyed by file extension or by
  the catch-all `"*"`. The entries are tried in list order. An entry is either:
  - a *matcher*, with an optional file-name pattern and an optional content
    pattern, which leads to a command;
  - or directly a *command*.

  The first entry that qualifies wins. File contents are read only when a
  matcher's content pattern needs them, and they are cached once read.
- **Launch configuration** (`src/winutil/structs.rs`, `src/winproc.rs`). This
  part translates sparse, string-keyed JSON settings into the dense Win32
  records `SECURITY_ATTRIBUTES` and `STARTUPINFOA` plus creation flags.
  - Flag names resolve through fixed tables.
  - Unknown names are skipped.
  - Numbers are truncated to 32 bits.
  - Everything is combined with bitwise OR.

  A final policy checks the command path before spawning the process.

The placeholder substitution of `main` (src/main.rs:356-372) is modelled on
its own. It replaces `~~$i` in the command, the arguments and the working
directory with the i-th command-line argument. As written, `main` never gets
there. The "old code" loop that performs the substitution begins with
`proxy_rules.as_array().unwrap()` (src/main.rs:280). `read_rules_json` returns
only objects (src/main.rs:80-84), so that `unwrap` always panics. The model
gives the substitution the loop evidently means to perform.

## Modules

| file | module | models |
|---|---|---|
| wrappers.dfy | `Wrappers` | `Option` and `Result` |
| json.dfy | `Json` | the `serde_json::Value` tree and the accessors the code uses (`as_str`, `as_u64`, `as_i64`, `as_bool`, `as_array`, `as_object`, `get`, indexing) |
| strings.dfy | `Strings` | `str::contains`, `ends_with`, `replace`, decimal formatting, and the interior-NUL test of `CString::new` |
| flags.dfy | `FlagTables` | the Win32 constants, the four name-to-flag tables, and the filter-map-then-OR fold |
| native.dfy | `Native` | the native records `SECURITY_ATTRIBUTES` and `STARTUPINFOA`, C-string pointers, and the integer casts `as u32`, `as u16` and `as isize` |
| structs.dfy | `Structs` | `StartupInformation`, `SecurityAttributes` and `CreationExtras`: their defaults, `from_json` and `as_native` |
| rules.dfy | `Rules` | `FassocRules`, `Matcher`, `Command` and `find_suitable_command` |
| winproc.dfy | `WinProc` | `ProcessCreationParameters::default`/`from_rule`, and `invoke_command` |
| proxy.dfy | `Proxy` | `search_for_rule`, the extension lookup and rule search inside `main`, and the placeholder loop |

### Modelling choices

- **Oracles for the regex engine and file reads.**
  - The regex engine is a function `regex(pattern, text): Option<bool>`. It
    returns `None` when the pattern does not compile.
  - The file read is a function of the attempt number, `read(k)`. This makes
    it observable that a failed read is retried by the next content matcher,
    while a successful read is cached. `Rules.TestMatcher` and
    `Rules.FailedReadIsRetried` state this.
- **Path facts are inputs.** `invoke_command` takes three facts about the
  command path as plain inputs: whether it exists, its extension, and whether
  it is absolute.
- **`CreateProcessA` is a parameter.** It is a function from the assembled
  parameters to a status plus a `PROCESS_INFORMATION`.
- **A panic is a value.** When `from_rule` meets a string with an interior
  NUL, it panics. The model returns that as an error value naming the field.
- **Win32 values and sizes.** Constant values are those of the Win32 SDK
  headers. Record sizes are those of a 64-bit build:
  - `SECURITY_ATTRIBUTES` is 24 bytes;
  - `STARTUPINFOA` is 104 bytes.
- **Integer widths.** Rust's `i as u32`, `i as u16` and `i as isize` are
  written out.
  - Coordinates, sizes, character counts and the show-window code are
    numbers: `U32` and `U16` are integer types, and the casts are `% 2^32`
    and `% 2^16`.
  - Flag masks are 32-bit bit-vectors, since they are combined with OR. A
    number inside a flag list becomes the mask whose bit j is the j-th binary
    digit of the number, for j below 32.
  - For `as isize`, a u64 of 2^63 or more wraps to a negative value (two's
    complement).
- **Pointers and handles.** The null pointer and null handle are 0. A C
  string is either `NullStr` or `CStr(text)`.
- **Quirks kept as written:**
  - The fill-attribute table spells its key `COMMON_LVB_TRAILING_BYT`, so the
    correctly spelled name resolves to nothing.
  - `from_rule` computes a startup block from `extras` and then discards it.
    The parameters always carry the zero startup block with only `cb` set.
  - `creation_flags_append` is parsed but never used by `as_native`.
- **Order and placeholders.**
  - Entries are tried strictly in mapping-list order, whatever kind of
    pattern they hold. `Rules.ListOrderBeatsPatternKind` shows it: a content
    matcher listed first wins over a name-only matcher listed second.
  - A mapping entry that names a command is accepted directly.
  - Only positional `~~$i` tokens are substituted, and only in the command,
    the arguments and the working directory.

## Model

| member | source | states |
|---|---|---|
| FlagTables.Lookup | src/winutil/structs.rs:60-81 | a flag name resolves exactly when it is a key of its table, and then to the bits that table lists for that very name |
| FlagTables.Resolve | src/winutil/structs.rs:143-146 | a flag name resolves exactly when its table has it, to the table's bits; a u64 number resolves to its low 32 bits (bit by bit in MaskBitsAreBinaryDigits); any other element, a negative number or a float among them, resolves to nothing |
| FlagTables.FoldMask | src/winutil/structs.rs:139-150 | the OR-fold of an array's resolvable elements sets every bit of every resolved element |
| FlagTables.MaskBitsAreBinaryDigits | src/winutil/structs.rs:144 | a number in a flag list contributes the mask whose bit j is the j-th binary digit of the number, for every j below 32: the number modulo 2^32 |
| FlagTables.LowBitsAreDigits | src/winutil/structs.rs:144 | the mask built from the low k digits of a number has bit j set exactly when the j-th binary digit is 1, for j < k <= 32 |
| FlagTables.OrInto | src/winutil/structs.rs:149 | one fold step keeps every bit of the accumulator and of a present contribution, and leaves the accumulator alone for an absent one |
| FlagTables.OrFold | src/winutil/structs.rs:149 | the left fold with OR from 0 sets every bit of every present contribution |
| FlagTables.OrFoldIsLeast | src/winutil/structs.rs:149 | the left fold sets no bit outside any mask that covers all present contributions |
| FlagTables.FoldMaskIsLeast | src/winutil/structs.rs:143-149 | the fold sets no bit beyond the resolved elements: it is below every mask that covers them |
| FlagTables.FoldMaskDependsOnlyOnElements | src/winutil/structs.rs:156-164 | the combined flags depend only on which elements occur, not on their order or repetition |
| FlagTables.FoldMaskPermutation | src/winproc.rs:174-180 | reordering the creation-flag list leaves the combined flags unchanged |
| FlagTables.FoldMaskIgnoresUnresolved | src/winutil/structs.rs:143-147 | an unknown name or a non-numeric element adds nothing and is not an error |
| FlagTables.TrailingByteKeyMisspelled | src/winutil/structs.rs:71 | the correctly spelled COMMON_LVB_TRAILING_BYTE resolves to nothing; the misspelled key carries the flag |
| FlagTables.NoWindowWithUnknownFlag | src/winutil/structs.rs:391-402 | ["CREATE_NO_WINDOW", "UNKNOWN_FLAG"] yields exactly CREATE_NO_WINDOW |
| Json.StringElements | src/main.rs:91 | a name is kept exactly when it is a string element of the array; never more names than elements |
| Json.StringElementsOfConcat | src/main.rs:91 | filtering works element by element: the names of a concatenation are the names of its parts, in order |
| Json.StringElementsOfOne | src/main.rs:91 | a string element is kept as its text and any other element is dropped |
| Native.NewCString | src/winutil/structs.rs:196-202 | a C string is created exactly when the text holds no NUL, and it carries that text |
| Native.TruncU32 | src/winutil/structs.rs:116-137 | `as u32`: the one value below 2^32 congruent to the input modulo 2^32, so a value in range is kept |
| Native.TruncU16 | src/winutil/structs.rs:168-171 | `as u16`: the one value below 2^16 congruent to the input modulo 2^16, so a value in range is kept |
| Native.U64ToIsize | src/winutil/structs.rs:173-184 | `as isize` on a u64: the one value in [-2^63, 2^63) congruent to the input modulo 2^64, so values below 2^63 are kept |
| Strings.Replace | src/main.rs:360-366 | replacing a pattern by itself changes nothing; an equally long replacement keeps the length; an empty pattern inserts the replacement around every character; every occurrence is covered by ReplaceFirstThenRest |
| Strings.ReplaceWithoutOccurrence | src/main.rs:360-366 | replacing a pattern that does not occur leaves the string unchanged |
| Strings.ReplaceFirstThenRest | src/main.rs:360-366 | for any text with no occurrence of the pattern before a given one, that occurrence becomes the replacement and replacing carries on in the rest, so every later occurrence is replaced too |
| Strings.TwoOccurrencesBothReplaced | src/main.rs:360-366 | a placeholder written twice is replaced at both places, not only the first |
| Strings.ContainsPrefixOf | src/main.rs:357-360 | a string containing a placeholder contains every prefix of it |
| Strings.Decimal | src/main.rs:357 | the formatted index is a non-empty string of decimal digits |
| Strings.DecimalValue | src/main.rs:357 | the formatted index reads back, digit by digit, as the index itself |
| Strings.DecimalInjective | src/main.rs:357 | distinct indices format to distinct strings |
| Structs.U32Field | src/winutil/structs.rs:116-137 | a field is present exactly when its key holds a u64, and then its value is that number modulo 2^32 |
| Structs.U16Field | src/winutil/structs.rs:168-171 | show_window is present exactly when its key holds a u64, and then its value is that number modulo 2^16 |
| Structs.IsizeField | src/winutil/structs.rs:173-184 | a handle is present exactly when its key holds a u64; the value is that number below 2^63 and that number minus 2^64 from 2^63 up |
| Structs.BoolField | src/winutil/structs.rs:152-154 | a flag is present exactly when its key holds a boolean, and then it is that boolean |
| Structs.StringField | src/winutil/structs.rs:106-114 | desktop or title is present exactly when its key holds a string, and then it is that string |
| Structs.MaskField | src/winutil/structs.rs:139-164 | a flag field is present exactly when its key holds an array; its mask covers every resolved element and is below every mask that does, so it is their OR; an empty array gives 0 |
| Structs.Overlay | src/winutil/structs.rs:213-227 | an absent value keeps the default; append mode ORs into it; otherwise the value replaces it |
| Structs.SecurityAttributesFromJson | src/winutil/structs.rs:259-269 | the descriptor is the `as isize` of the u64 under its key, and inherit_handle the boolean under its key; each is absent exactly when its key holds no such value |
| Structs.SecurityAttributesAsNative | src/winutil/structs.rs:271-284 | nLength is the record size; the descriptor is copied only when given; bInheritHandle is 1 exactly for Some(true) and otherwise 0 |
| Structs.StartupInformationFromJson | src/winutil/structs.rs:104-188 | every field is read from its own key: desktop and title are the strings there; coordinates, sizes and counts the u64 modulo 2^32; show_window the u64 modulo 2^16; fill and flags the OR of the listed flags; the append flags the booleans; the handles the `as isize` of the u64; each absent exactly when its key holds no such value |
| Structs.EmptyObjectGivesDefaultStartupInformation | src/winutil/structs.rs:104-188 | an empty object gives the all-unset default |
| Structs.StartupInformationFromJsonReadsOnlyItsKeys | src/winutil/structs.rs:104-188 | two objects that agree on every key from_json reads give the same settings |
| Structs.StartupInformationAsNative | src/winutil/structs.rs:190-236 | cb is the record size; desktop and title point to their text exactly when present and NUL-free; every other member is its given value or the zero default |
| Structs.AppendModeIrrelevantOnZeroBase | src/winutil/structs.rs:213-227 | because the base record is zeroed, append and replace mode give the same native record |
| Structs.EmptyStartupInformationGivesSizedDefault | src/winutil/structs.rs:36-57 | the default settings convert to the zeroed record with only cb set |
| Structs.StartupFlagsIgnoreListOrder | src/winutil/structs.rs:156-164 | replacing the "flags" array by any array with the same elements yields the same native record |
| Structs.CreationExtrasFromJson | src/winutil/structs.rs:376-419 | an empty object gives the all-unset default; the attributes and startup_info are from_json of the objects under their keys; inherit_handles and creation_flags_append are the booleans; creation flags the OR of the listed flags; environment the i64 under its key; each absent exactly when its key holds no such value |
| Structs.CreationExtrasAsNative | src/winutil/structs.rs:421-448 | each part is its converted value when given and the default otherwise; inherit is 1 exactly for Some(true); the current directory stays null |
| Structs.CreationFlagsAppendIgnored | src/winutil/structs.rs:435-437 | creation_flags_append has no effect on the native record |
| Structs.EmptyCreationExtrasGiveDefault | src/winutil/structs.rs:302-316 | an empty object converts to the native default |
| Rules.TestMatcher | src/rules.rs:125-157 | contents are read exactly when the name test passed, the matcher has a content pattern and nothing is cached, so an earlier failed read is retried; acceptance holds exactly when the name test passed and, for a content pattern, the contents were read and match |
| Rules.RMatchFile | src/rules.rs:193-200 | NoRegexError exactly when there is no pattern, RegexCompileError exactly when it does not compile, otherwise the regex verdict |
| Rules.EnsureContentsRead | src/rules.rs:68-82 | a cached content is kept without a read; otherwise exactly one attempt is made and its outcome, None on failure, is what is cached |
| Rules.FailedReadIsRetried | src/rules.rs:68-81 | when the first read fails, the first content matcher fails and the next content matcher reads again and succeeds, after two attempts |
| Rules.TryEntry | src/rules.rs:89-123 | an accepted entry yields one of the rule set's commands; the cache changes only by one read into an empty cache |
| Rules.Walk | src/rules.rs:86-170 | read attempts only grow; a cached content is never re-read; every read attempt but the last one failed; a found command is one of the rule set's commands |
| Rules.SelectMapping | src/rules.rs:51-62 | the extension's list wins over "*"; "*" is used otherwise; no list exactly when neither exists |
| Rules.FindSuitableCommand | src/rules.rs:39-173 | an unconvertible name fails with CannotConvertPath and no mapping with NoMappingFound, both without reading; success returns a command of the rule set; a successful first read means at most one read |
| Rules.TryEntryAgreesWithVerdict | src/rules.rs:89-169 | with fixed contents, the cached test of an entry gives the same verdict as the cache-free reference |
| Rules.WalkFindsFirstAcceptingEntry | src/rules.rs:86-172 | with fixed contents, the walk returns the command of the first accepting entry in list order, and nothing when none accepts |
| Rules.ResolvesToFirstAcceptingEntry | src/rules.rs:39-173 | with fixed contents, resolution returns the first accepting entry of the chosen list, and NoMatchFound when none accepts |
| Rules.NoContentPatternNoRead | src/rules.rs:144-157 | when no walked matcher has a content pattern, the file is never read |
| Rules.RegexCompileErrorIsNoMatch | src/rules.rs:128-157 | a pattern that fails to compile makes its matcher fail; a broken name pattern causes no read |
| Rules.ListOrderBeatsPatternKind | src/rules.rs:86-169 | a content matcher listed first wins over a name matcher listed second, after exactly one read |
| Rules.ShebangScenario | src/rules.rs:144-169 | a shebang content rule wins for "#!/bin/sh" contents, and the unconditional fallback wins for "hello" |
| Rules.WildcardScenario | src/rules.rs:51-62 | a file without an extension resolves through the "*" list without reading the file |
| WinProc.FromRule | src/winproc.rs:73-301 | succeeds exactly when path, arguments and cwd are NUL-free; the failure names the first offending field, in the order path, arguments, cwd; on success command, arguments and cwd point to the given text, or are null when absent; the inherit flag and creation flags are as given; the startup block is the zeroed one |
| WinProc.DefaultParameters | src/winproc.rs:52-70 | null command, arguments, cwd and directory; the attributes, flags, environment and startup block of NativeCreationExtras::default; the startup block equals StartupInformation::as_native of the default settings |
| WinProc.FromRuleIgnoresExtras | src/winproc.rs:185-300 | the extras of a command have no effect on the creation parameters |
| WinProc.FromRuleAgreesWithCreationExtras | src/winproc.rs:110-183 | the attributes, inherit flag and creation flags of from_rule agree with CreationExtras::as_native of the same settings |
| WinProc.InvokeCommand | src/winproc.rs:327-372 | panics exactly when from_rule does; otherwise reports, in order, a missing path, a non-"exe" extension, a relative path, and otherwise the spawned process information |
| WinProc.SpawnStatusIgnored | src/winproc.rs:364-371 | the CreateProcessA status does not affect the result |
| WinProc.ExecutableExtensionExamples | src/winproc.rs:336-338 | "exe" and "notexe" count as executable; "EXE", "bat" and no extension do not |
| Proxy.AnyPatternMatches | src/main.rs:112-126 | true exactly when some string pattern compiles and matches the text |
| Proxy.FirstMatchingName | src/main.rs:96-127 | returns the first name in list order whose rule matches, and None exactly when none matches |
| Proxy.SearchForRule | src/main.rs:89-133 | a mapping value that is not an array gives None; a found name is a string element of the array whose rule matches; that it is the first such is stated by SearchForRuleFindsFirstMatch |
| Proxy.FilteredSearchIsFirstInArray | src/main.rs:90-127 | filtering the names and then searching finds the first matching string element of the original array |
| Proxy.SearchForRuleFindsFirstMatch | src/main.rs:89-133 | a non-array mapping gives None; otherwise the result is the first matching string name in array order, and None exactly when none matches |
| Proxy.BrokenPatternDoesNotStopSearch | src/main.rs:118-124 | a pattern that does not compile fails alone; a later pattern of the same rule can still match |
| Proxy.ExtensionRuleNames | src/main.rs:204-213 | the names are the string elements listed for the extension; None exactly when there is no extension, no key, no array or no string name |
| Proxy.MissingExtensionKeyPanics | src/main.rs:205 | an extension without a mapping key makes the written lookup panic, where the corrected one gives None |
| Proxy.CorrectedLookupAgreesWithoutPanic | src/main.rs:204-213 | whenever the written lookup does not panic, it agrees with the corrected one |
| Proxy.MainFirstMatchingRule | src/main.rs:216-260 | no extension gives no rule, since there is no "*" fallback; otherwise the result is the first listed name whose rule matches the full target path, and None exactly when none matches; built on the corrected lookup, so an unmapped extension gives None where the code panics |
| Proxy.PlaceholderInjective | src/main.rs:357 | distinct indices give distinct placeholders |
| Proxy.SubstituteFrom | src/main.rs:368-371 | a working directory stays absent exactly when it was absent |
| Proxy.SubstitutePlaceholders | src/main.rs:356-372 | each field equals its own ascending replacement of every `~~$i` by the i-th argument, the contains guard notwithstanding; the working directory is present exactly when it was |
| Proxy.ContainsGuardIsRedundant | src/main.rs:360-366 | the contains guard before replace changes nothing |
| Proxy.SubstitutionIsPerFieldReplace | src/main.rs:356-372 | the loop rewrites each of the three strings independently, as unconditional replacement in ascending index order |
| Proxy.NoMarkerNoChange | src/main.rs:356-372 | a string without "~~$" is unchanged by every placeholder |
| Proxy.UnmarkedStringsUnchanged | src/main.rs:356-372 | command, arguments and working directory without "~~$" pass through unchanged |
| Proxy.ExpansionIdempotentOnceResolved | src/main.rs:356-372 | once no "~~$" remains, expanding again changes nothing |
| Proxy.TenHoldsNoPlaceholderZero | src/main.rs:357-361 | "~~$10" holds no "~~$0" |
| Proxy.TenStartsWithPlaceholderOne | src/main.rs:357-361 | "~~$1" replaces the front of "~~$10", leaving a trailing "0" |
| Proxy.PlaceholderTenReadsAsOne | src/main.rs:356-372 | "~~$10" is consumed by index 1 first and becomes args[1] followed by "0" |

## Left out

- Logging (`src/logging.rs`, every `log::` call) and the process exit in `main`: they have no effect on the modelled results.
- `read_rules_json` and serde deserialization of the typed rules: the model starts from the parsed `Value` tree and from the typed `FassocRules`.
- Reading the command line and the `FASSOC_PROXY_RULES` variable in `main`: arguments are an input sequence.
- `main` looks up `proxy_rules["mapping"]` (singular) and `proxy_rules["rules"]`, panicking when either is not an object. The model takes the resulting maps as inputs.
- The "old code" loop of `main` (src/main.rs:280-395): it is unreachable, because `read_rules_json` accepts only objects (src/main.rs:80-84), so `proxy_rules.as_array().unwrap()` at src/main.rs:280 always panics. For the same reason, the rule that `main` finds (src/main.rs:216-256) is never spawned. Only the loop's placeholder substitution (src/main.rs:356-372) is modelled, as the behaviour the loop is evidently meant to have. Its regex walk over the array is left out.
- `CreateProcessA`, `Path::exists`, `Path::extension`, `Path::is_absolute`, `file_name`, and the file read: these are the operating system's, given as parameters or inputs.
- `src/winutil/procspawn.rs` and the `src/winutil.rs` wrappers: thin FFI glue outside the modelled logic.
- The reserved members of `STARTUPINFOA` (`lpReserved`, `cbReserved2`, `lpReserved2`): always zero, never touched by the code.
- The leaked `CString` allocations (`into_raw`): memory ownership is not modelled; a pointer is the text it points to.
- Floating-point JSON numbers: they read as neither u64 nor i64, so they are modelled as one opaque `JFloat` value.

## Findings

| source | as written | input that shows it | evidently intended | confidence | as-written member | corrected member |
|---|---|---|---|---|---|---|
| src/main.rs:205 | `mappings[ext]` indexes the `serde_json::Map` returned by `as_object()`, and that index panics when the key is missing | a target file with extension `txt` and a mapping object without a `txt` key, e.g. only `"*"` | an unmapped extension gives no rule list, like the `None` arms around it | not executed | Proxy.ExtensionRuleNamesAsWritten (shown by Proxy.MissingExtensionKeyPanics) | Proxy.ExtensionRuleNames (agreement by Proxy.CorrectedLookupAgreesWithoutPanic) |

=== FILE: flags.dfy ===
/**
  The fixed name-to-bit tables of the launch configuration and the folding of
  a JSON list of names and raw integers into one bit mask.

  Bit values are those of the Win32 headers (wincon.h, winbase.h, processthreadsapi.h,
  winuser.h); the source takes them from the `windows` crate.
 */
module FlagTables {
  import opened Wrappers
  import opened Json

  // Console character attributes (fill_attribute).
  const FOREGROUND_BLUE: bv32 := 0x0001
  const FOREGROUND_GREEN: bv32 := 0x0002
  const FOREGROUND_RED: bv32 := 0x0004
  const FOREGROUND_INTENSITY: bv32 := 0x0008
  const BACKGROUND_BLUE: bv32 := 0x0010
  const BACKGROUND_GREEN: bv32 := 0x0020
  const BACKGROUND_RED: bv32 := 0x0040
  const BACKGROUND_INTENSITY: bv32 := 0x0080
  const COMMON_LVB_LEADING_BYTE: bv32 := 0x0100
  const COMMON_LVB_TRAILING_BYTE: bv32 := 0x0200
  const COMMON_LVB_GRID_HORIZONTAL: bv32 := 0x0400
  const COMMON_LVB_GRID_LVERTICAL: bv32 := 0x0800
  const COMMON_LVB_GRID_RVERTICAL: bv32 := 0x1000
  const COMMON_LVB_REVERSE_VIDEO: bv32 := 0x4000
  const COMMON_LVB_UNDERSCORE: bv32 := 0x8000
  const COMMON_LVB_SBCSDBCS: bv32 := 0x0300

  // STARTUPINFO flags.
  const STARTF_USESHOWWINDOW: bv32 := 0x0001
  const STARTF_USESIZE: bv32 := 0x0002
  const STARTF_USEPOSITION: bv32 := 0x0004
  const STARTF_USECOUNTCHARS: bv32 := 0x0008
  const STARTF_USEFILLATTRIBUTE: bv32 := 0x0010
  const STARTF_RUNFULLSCREEN: bv32 := 0x0020
  const STARTF_FORCEONFEEDBACK: bv32 := 0x0040
  const STARTF_FORCEOFFFEEDBACK: bv32 := 0x0080
  const STARTF_USESTDHANDLES: bv32 := 0x0100
  const STARTF_USEHOTKEY: bv32 := 0x0200
  const STARTF_TITLEISLINKNAME: bv32 := 0x0800
  const STARTF_TITLEISAPPID: bv32 := 0x1000
  const STARTF_PREVENTPINNING: bv32 := 0x2000
  const STARTF_UNTRUSTEDSOURCE: bv32 := 0x8000

  // Process creation flags.
  const DEBUG_PROCESS: bv32 := 0x0000_0001
  const DEBUG_ONLY_THIS_PROCESS: bv32 := 0x0000_0002
  const CREATE_SUSPENDED: bv32 := 0x0000_0004
  const DETACHED_PROCESS: bv32 := 0x0000_0008
  const CREATE_NEW_CONSOLE: bv32 := 0x0000_0010
  const CREATE_NEW_PROCESS_GROUP: bv32 := 0x0000_0200
  const CREATE_UNICODE_ENVIRONMENT: bv32 := 0x0000_0400
  const CREATE_SEPARATE_WOW_VDM: bv32 := 0x0000_0800
  const CREATE_SHARED_WOW_VDM: bv32 := 0x0000_1000
  const INHERIT_PARENT_AFFINITY: bv32 := 0x0001_0000
  const CREATE_PROTECTED_PROCESS: bv32 := 0x0004_0000
  const EXTENDED_STARTUPINFO_PRESENT: bv32 := 0x0008_0000
  const CREATE_SECURE_PROCESS: bv32 := 0x0040_0000
  const CREATE_BREAKAWAY_FROM_JOB: bv32 := 0x0100_0000
  const CREATE_PRESERVE_CODE_AUTHZ_LEVEL: bv32 := 0x0200_0000
  const CREATE_DEFAULT_ERROR_MODE: bv32 := 0x0400_0000
  const CREATE_NO_WINDOW: bv32 := 0x0800_0000

  // ShowWindow commands.
  const SW_HIDE: bv32 := 0
  const SW_SHOWNORMAL: bv32 := 1
  const SW_SHOWMINIMIZED: bv32 := 2
  const SW_SHOWMAXIMIZED: bv32 := 3
  const SW_MAXIMIZE: bv32 := 3
  const SW_SHOWNOACTIVATE: bv32 := 4
  const SW_SHOW: bv32 := 5
  const SW_MINIMIZE: bv32 := 6
  const SW_SHOWMINNOACTIVE: bv32 := 7
  const SW_SHOWNA: bv32 := 8
  const SW_RESTORE: bv32 := 9
  const SW_SHOWDEFAULT: bv32 := 10

  /**
    The table behind `fattr_flagstr_to_u32`. The key for
    COMMON_LVB_TRAILING_BYTE is spelled "COMMON_LVB_TRAILING_BYT", as in the source.
   */
  const FillAttributeTable: map<string, bv32> := map[
    "FOREGROUND_BLUE" := FOREGROUND_BLUE,
    "FOREGROUND_RED" := FOREGROUND_RED,
    "FOREGROUND_GREEN" := FOREGROUND_GREEN,
    "BACKGROUND_BLUE" := BACKGROUND_BLUE,
    "BACKGROUND_RED" := BACKGROUND_RED,
    "BACKGROUND_GREEN" := BACKGROUND_GREEN,
    "BACKGROUND_INTENSITY" := BACKGROUND_INTENSITY,
    "FOREGROUND_INTENSITY" := FOREGROUND_INTENSITY,
    "COMMON_LVB_LEADING_BYTE" := COMMON_LVB_LEADING_BYTE,
    "COMMON_LVB_TRAILING_BYT" := COMMON_LVB_TRAILING_BYTE,
    "COMMON_LVB_GRID_HORIZONTAL" := COMMON_LVB_GRID_HORIZONTAL,
    "COMMON_LVB_GRID_LVERTICAL" := COMMON_LVB_GRID_LVERTICAL,
    "COMMON_LVB_GRID_RVERTICAL" := COMMON_LVB_GRID_RVERTICAL,
    "COMMON_LVB_REVERSE_VIDEO" := COMMON_LVB_REVERSE_VIDEO,
    "COMMON_LVB_UNDERSCORE" := COMMON_LVB_UNDERSCORE,
    "COMMON_LVB_SBCSDBCS" := COMMON_LVB_SBCSDBCS
  ]

  /** The table behind `siwf_flagstr_to_u32`. */
  const StartupFlagTable: map<string, bv32> := map[
    "STARTF_FORCEONFEEDBACK" := STARTF_FORCEONFEEDBACK,
    "STARTF_FORCEOFFFEEDBACK" := STARTF_FORCEOFFFEEDBACK,
    "STARTF_PREVENTPINNING" := STARTF_PREVENTPINNING,
    "STARTF_RUNFULLSCREEN" := STARTF_RUNFULLSCREEN,
    "STARTF_TITLEISAPPID" := STARTF_TITLEISAPPID,
    "STARTF_TITLEISLINKNAME" := STARTF_TITLEISLINKNAME,
    "STARTF_UNTRUSTEDSOURCE" := STARTF_UNTRUSTEDSOURCE,
    "STARTF_USECOUNTCHARS" := STARTF_USECOUNTCHARS,
    "STARTF_USEFILLATTRIBUTE" := STARTF_USEFILLATTRIBUTE,
    "STARTF_USEHOTKEY" := STARTF_USEHOTKEY,
    "STARTF_USEPOSITION" := STARTF_USEPOSITION,
    "STARTF_USESHOWWINDOW" := STARTF_USESHOWWINDOW,
    "STARTF_USESIZE" := STARTF_USESIZE,
    "STARTF_USESTDHANDLES" := STARTF_USESTDHANDLES
  ]

  /** The table behind `cf_flagstr_to_u32`, repeated inline in `from_rule`. */
  const CreationFlagTable: map<string, bv32> := map[
    "CREATE_BREAKAWAY_FROM_JOB" := CREATE_BREAKAWAY_FROM_JOB,
    "CREATE_DEFAULT_ERROR_MODE" := CREATE_DEFAULT_ERROR_MODE,
    "CREATE_NEW_CONSOLE" := CREATE_NEW_CONSOLE,
    "CREATE_NEW_PROCESS_GROUP" := CREATE_NEW_PROCESS_GROUP,
    "CREATE_NO_WINDOW" := CREATE_NO_WINDOW,
    "CREATE_PROTECTED_PROCESS" := CREATE_PROTECTED_PROCESS,
    "CREATE_PRESERVE_CODE_AUTHZ_LEVEL" := CREATE_PRESERVE_CODE_AUTHZ_LEVEL,
    "CREATE_SECURE_PROCESS" := CREATE_SECURE_PROCESS,
    "CREATE_SEPARATE_WOW_VDM" := CREATE_SEPARATE_WOW_VDM,
    "CREATE_SHARED_WOW_VDM" := CREATE_SHARED_WOW_VDM,
    "CREATE_SUSPENDED" := CREATE_SUSPENDED,
    "CREATE_UNICODE_ENVIRONMENT" := CREATE_UNICODE_ENVIRONMENT,
    "DEBUG_ONLY_THIS_PROCESS" := DEBUG_ONLY_THIS_PROCESS,
    "DEBUG_PROCESS" := DEBUG_PROCESS,
    "DETACHED_PROCESS" := DETACHED_PROCESS,
    "EXTENDED_STARTUPINFO_PRESENT" := EXTENDED_STARTUPINFO_PRESENT,
    "INHERIT_PARENT_AFFINITY" := INHERIT_PARENT_AFFINITY
  ]

  /** The `SW_*` table written inline in `from_rule` for `show_window`. */
  const ShowWindowTable: map<string, bv32> := map[
    "SW_HIDE" := SW_HIDE,
    "SW_MAXIMIZE" := SW_MAXIMIZE,
    "SW_MINIMIZE" := SW_MINIMIZE,
    "SW_RESTORE" := SW_RESTORE,
    "SW_SHOW" := SW_SHOW,
    "SW_SHOWDEFAULT" := SW_SHOWDEFAULT,
    "SW_SHOWMAXIMIZED" := SW_SHOWMAXIMIZED,
    "SW_SHOWMINIMIZED" := SW_SHOWMINIMIZED,
    "SW_SHOWMINNOACTIVE" := SW_SHOWMINNOACTIVE,
    "SW_SHOWNA" := SW_SHOWNA,
    "SW_SHOWNOACTIVATE" := SW_SHOWNOACTIVATE,
    "SW_SHOWNORMAL" := SW_SHOWNORMAL
  ]

  /** The field groups that have a name table. */
  datatype FlagGroup = FillAttributes | StartupFlags | CreationFlags | ShowWindow

  function TableOf(group: FlagGroup): map<string, bv32> {
    match group
    case FillAttributes => FillAttributeTable
    case StartupFlags => StartupFlagTable
    case CreationFlags => CreationFlagTable
    case ShowWindow => ShowWindowTable
  }

  /** `resolver.get(flagstr)`: the bits for a known name, `None` for any other name. */
  function Lookup(group: FlagGroup, name: string): (r: Option<bv32>)
    ensures r.Some? <==> name in TableOf(group)
    ensures name in TableOf(group) ==> r == Some(TableOf(group)[name])
  {
    if name in TableOf(group) then Some(TableOf(group)[name]) else None
  }

  /** `a` sets no bit outside `b`. */
  predicate SubMask(a: bv32, b: bv32) {
    a & b == a
  }

  // ---------------------------------------------------------------------------
  // A raw integer as a mask: `i as u32` read bit by bit
  // ---------------------------------------------------------------------------

  /** `2^k` */
  function Pow2(k: nat): (r: nat)
    ensures r >= 1
  {
    if k == 0 then 1 else 2 * Pow2(k - 1)
  }

  /** The low `k` binary digits of `n` as a mask, built from the most significant one down. */
  function LowBits(n: nat, k: nat): bv32
    decreases k
  {
    if k == 0 then 0 else ShiftIn(LowBits(n / 2, k - 1), n % 2 == 1)
  }

  /** `high` moved up one place with `bit` as the new lowest bit. */
  function ShiftIn(high: bv32, bit: bool): bv32 {
    (high << 1) | (if bit then 1 else 0)
  }

  /** `e.as_u64().map(|i| i as u32)` for a flag-list element: the low 32 binary digits of the number. */
  function MaskBits(n: nat): bv32 {
    LowBits(n, 32)
  }

  function Half(v: bv32): bv32 {
    v >> 1
  }

  predicate Odd(v: bv32) {
    v & 1 == 1
  }

  /** Bit `j` of `v` is set. */
  predicate BitSet(v: bv32, j: nat)
    decreases j
  {
    if j == 0 then Odd(v) else BitSet(Half(v), j - 1)
  }

  /** The low `m` bits of `v` are all set. */
  predicate LowOnes(v: bv32, m: nat)
    decreases m
  {
    m == 0 || (Odd(v) && LowOnes(Half(v), m - 1))
  }

  /** `v` shifted right `s` places. */
  function Shr(v: bv32, s: nat): bv32
    decreases s
  {
    if s == 0 then v else Shr(Half(v), s - 1)
  }

  lemma {:induction false} LowOnesFewer(v: bv32, m: nat, m': nat)
    requires m' <= m && LowOnes(v, m)
    ensures LowOnes(v, m')
    decreases m
  {
    if m' > 0 {
      LowOnesFewer(Half(v), m - 1, m' - 1);
    }
  }

  lemma {:induction false} LowOnesJoin(v: bv32, a: nat, b: nat)
    requires LowOnes(v, a) && LowOnes(Shr(v, a), b)
    ensures LowOnes(v, a + b)
    decreases a
  {
    if a > 0 {
      LowOnesJoin(Half(v), a - 1, b);
    }
  }

  lemma Ones31Top()
    ensures LowOnes(0x7FFF_FFFF, 8) && Shr(0x7FFF_FFFF, 8) == 0x7F_FFFF
  {
  }

  lemma Ones23Top()
    ensures LowOnes(0x7F_FFFF, 8) && Shr(0x7F_FFFF, 8) == 0x7FFF
  {
  }

  lemma Ones15Top()
    ensures LowOnes(0x7FFF, 8) && Shr(0x7FFF, 8) == 0x7F
  {
  }

  lemma Ones7()
    ensures LowOnes(0x7F, 7)
  {
  }

  /** `0x7FFF_FFFF` has its low 31 bits set. */
  lemma Ones31()
    ensures LowOnes(0x7FFF_FFFF, 31)
  {
    Ones31Top();
    Ones23Top();
    Ones15Top();
    Ones7();
    LowOnesJoin(0x7FFF, 8, 7);
    LowOnesJoin(0x7F_FFFF, 8, 15);
    LowOnesJoin(0x7FFF_FFFF, 8, 23);
  }

  lemma MaskedHalf(v: bv32, w: bv32, mask: bv32)
    requires v & mask == w & mask
    ensures Half(v) & Half(mask) == Half(w) & Half(mask)
  {
  }

  lemma MaskedLowBit(v: bv32, w: bv32, mask: bv32)
    requires v & mask == w & mask && Odd(mask)
    ensures Odd(v) <==> Odd(w)
  {
  }

  /** Masks that agree under `mask` agree on every bit `mask` keeps. */
  lemma {:induction false} AgreeBelowMask(v: bv32, w: bv32, mask: bv32, j: nat)
    requires v & mask == w & mask
    requires LowOnes(mask, j + 1)
    ensures BitSet(v, j) <==> BitSet(w, j)
    decreases j
  {
    if j == 0 {
      MaskedLowBit(v, w, mask);
    } else {
      MaskedHalf(v, w, mask);
      AgreeBelowMask(Half(v), Half(w), Half(mask), j - 1);
    }
  }

  lemma ShiftInThenBack(high: bv32, bit: bool)
    ensures Half(ShiftIn(high, bit)) & 0x7FFF_FFFF == high & 0x7FFF_FFFF
  {
  }

  lemma ShiftInLowBit(high: bv32, bit: bool)
    ensures BitSet(ShiftIn(high, bit), 0) <==> bit
  {
  }

  /** Shifting in a bit moves every other bit up one place. */
  lemma ShiftInHighBit(high: bv32, bit: bool, j: nat)
    requires 0 < j < 32
    ensures BitSet(ShiftIn(high, bit), j) <==> BitSet(high, j - 1)
  {
    ShiftInThenBack(high, bit);
    Ones31();
    LowOnesFewer(0x7FFF_FFFF, 31, j);
    AgreeBelowMask(Half(ShiftIn(high, bit)), high, 0x7FFF_FFFF, j - 1);
  }

  lemma MulMonotone(d: nat, a: nat, b: nat)
    requires a < b
    ensures d * a + d <= d * b
  {
    var c := b - a - 1;
    assert d * b == d * a + d + d * c;
  }

  /** The quotient is the only `q` with `n == d * q + r` and `r < d`. */
  lemma DivUnique(n: nat, d: nat, q: nat, r: nat)
    requires d > 0 && n == d * q + r && r < d
    ensures n / d == q
  {
    var q' := n / d;
    assert n == d * q' + n % d;
    if q' < q {
      MulMonotone(d, q', q);
    } else if q < q' {
      MulMonotone(d, q, q');
    }
  }

  lemma DivPow2Step(n: nat, j: nat)
    requires j > 0
    ensures n / Pow2(j) == (n / 2) / Pow2(j - 1)
  {
    var p := Pow2(j - 1);
    var q, r := (n / 2) / p, (n / 2) % p;
    assert n / 2 == p * q + r;
    assert n == 2 * p * q + (2 * r + n % 2);
    DivUnique(n, 2 * p, q, 2 * r + n % 2);
  }

  /** Bit `j` of `LowBits(n, k)` is the `j`-th binary digit of `n`, for `j < k`. */
  lemma {:induction false} LowBitsAreDigits(n: nat, k: nat, j: nat)
    requires j < k <= 32
    ensures BitSet(LowBits(n, k), j) <==> (n / Pow2(j)) % 2 == 1
    decreases k
  {
    if j == 0 {
      ShiftInLowBit(LowBits(n / 2, k - 1), n % 2 == 1);
    } else {
      ShiftInHighBit(LowBits(n / 2, k - 1), n % 2 == 1, j);
      LowBitsAreDigits(n / 2, k - 1, j - 1);
      DivPow2Step(n, j);
    }
  }

  /**
    A number in a flag list contributes `i as u32`: its 32 bits are the low 32
    binary digits of the number, which is the number modulo 2^32 in binary.
   */
  lemma MaskBitsAreBinaryDigits(n: nat, j: nat)
    requires j < 32
    ensures BitSet(MaskBits(n), j) <==> (n / Pow2(j)) % 2 == 1
  {
    LowBitsAreDigits(n, 32, j);
  }

  /**
    What one list element contributes, as in
    `e.as_str().map_or(e.as_u64().map(|i| i as u32), |e| resolver.get(e))`:
    a string is looked up in the table, a non-negative integer is kept
    modulo 2^32, and anything else contributes nothing.
   */
  function Resolve(group: FlagGroup, e: Value): (r: Option<bv32>)
    ensures e.JString? ==> (r.Some? <==> e.str in TableOf(group))
    ensures e.JString? && e.str in TableOf(group) ==> r == Some(TableOf(group)[e.str])
    ensures AsU64(e).Some? ==> r == Some(MaskBits(AsU64(e).value))
    ensures !e.JString? && AsU64(e).None? ==> r.None?
  {
    match AsStr(e)
    case Some(name) => Lookup(group, name)
    case None =>
      match AsU64(e)
      case Some(n) => Some(MaskBits(n))
      case None => None
  }

  /** What each element of `xs` contributes, in list order. */
  function Contributions(group: FlagGroup, xs: seq<Value>): (cs: seq<Option<bv32>>)
    ensures |cs| == |xs|
    ensures forall i | 0 <= i < |xs| :: cs[i] == Resolve(group, xs[i])
  {
    seq(|xs|, i requires 0 <= i < |xs| => Resolve(group, xs[i]))
  }

  /** Every present contribution is a sub-mask of `m`. */
  ghost predicate Covers(cs: seq<Option<bv32>>, m: bv32) {
    forall i | 0 <= i < |cs| && cs[i].Some? :: SubMask(cs[i].value, m)
  }

  /** Every resolved element of `xs` is a sub-mask of `m`. */
  ghost predicate CoversAll(group: FlagGroup, xs: seq<Value>, m: bv32) {
    forall i | 0 <= i < |xs| && Resolve(group, xs[i]).Some? :: SubMask(Resolve(group, xs[i]).value, m)
  }

  /** One step of the fold: OR a present contribution into the accumulator. */
  function OrInto(acc: bv32, c: Option<bv32>): (r: bv32)
    ensures SubMask(acc, r)
    ensures c.Some? ==> SubMask(c.value, r)
    ensures c.None? ==> r == acc
  {
    match c
    case None => acc
    case Some(v) =>
      SubMaskOrLeft(acc, v);
      SubMaskOrRight(acc, v);
      acc | v
  }

  /** `fold(0, |acc, e| acc | e)` over the present contributions, left to right. */
  function OrFold(cs: seq<Option<bv32>>): (r: bv32)
    ensures Covers(cs, r)
    decreases |cs|
  {
    if cs == [] then 0
    else
      var acc := OrFold(cs[..|cs| - 1]);
      var r := OrInto(acc, cs[|cs| - 1]);
      OrStepCovers(cs, acc, r);
      r
  }

  /** OR-ing keeps the left operand's bits. */
  lemma SubMaskOrLeft(a: bv32, b: bv32)
    ensures SubMask(a, a | b)
  {
  }

  /** OR-ing keeps the right operand's bits. */
  lemma SubMaskOrRight(a: bv32, b: bv32)
    ensures SubMask(b, a | b)
  {
  }

  /** Two sub-masks of `m` OR to a sub-mask of `m`. */
  lemma SubMaskOrBoth(a: bv32, b: bv32, m: bv32)
    requires SubMask(a, m) && SubMask(b, m)
    ensures SubMask(a | b, m)
  {
  }

  /** A fold step stays below any mask that bounds both the accumulator and the contribution. */
  lemma OrIntoLeast(acc: bv32, c: Option<bv32>, m: bv32)
    requires SubMask(acc, m)
    requires c.Some? ==> SubMask(c.value, m)
    ensures SubMask(OrInto(acc, c), m)
  {
    if c.Some? {
      SubMaskOrBoth(acc, c.value, m);
    }
  }

  /** `SubMask` is transitive. */
  lemma SubMaskTransitive(x: bv32, a: bv32, b: bv32)
    requires SubMask(x, a) && SubMask(a, b)
    ensures SubMask(x, b)
  {
  }

  /** One fold step: a mask above the previous fold and above the last contribution covers all of them. */
  lemma OrStepCovers(cs: seq<Option<bv32>>, acc: bv32, r: bv32)
    requires cs != []
    requires Covers(cs[..|cs| - 1], acc)
    requires SubMask(acc, r)
    requires cs[|cs| - 1].Some? ==> SubMask(cs[|cs| - 1].value, r)
    ensures Covers(cs, r)
  {
    var front := cs[..|cs| - 1];
    forall i | 0 <= i < |front| && cs[i].Some?
      ensures SubMask(cs[i].value, r)
    {
      assert front[i] == cs[i];
      SubMaskTransitive(cs[i].value, acc, r);
    }
  }

  /** The fold is the least mask covering the contributions: every bit it sets comes from one of them. */
  lemma {:induction false} OrFoldIsLeast(cs: seq<Option<bv32>>, m: bv32)
    requires Covers(cs, m)
    ensures SubMask(OrFold(cs), m)
    decreases |cs|
  {
    if cs != [] {
      var front := cs[..|cs| - 1];
      assert forall i | 0 <= i < |front| :: front[i] == cs[i];
      OrFoldIsLeast(front, m);
      OrIntoLeast(OrFold(front), cs[|cs| - 1], m);
    }
  }

  /**
    `nativized_array.fold(0, |acc, e| acc | e)` over the resolved elements.
    Its result covers every resolved element (the least such mask is shown
    by `FoldMaskIsLeast`).
   */
  function FoldMask(group: FlagGroup, xs: seq<Value>): (r: bv32)
    ensures CoversAll(group, xs, r)
  {
    var cs := Contributions(group, xs);
    var r := OrFold(cs);
    assert forall i | 0 <= i < |xs| && Resolve(group, xs[i]).Some? :: cs[i].Some? && SubMask(cs[i].value, r);
    r
  }

  /** The fold is the least mask covering the resolved elements: every bit it sets comes from one of them. */
  lemma FoldMaskIsLeast(group: FlagGroup, xs: seq<Value>, m: bv32)
    requires CoversAll(group, xs, m)
    ensures SubMask(FoldMask(group, xs), m)
  {
    var cs := Contributions(group, xs);
    assert forall i | 0 <= i < |cs| && cs[i].Some? :: Resolve(group, xs[i]).Some? && SubMask(cs[i].value, m);
    OrFoldIsLeast(cs, m);
  }

  /** `FoldMaskIsLeast` for every covering mask at once. */
  lemma FoldMaskIsLeastOfAll(group: FlagGroup, xs: seq<Value>)
    ensures forall m :: CoversAll(group, xs, m) ==> SubMask(FoldMask(group, xs), m)
  {
    forall m | CoversAll(group, xs, m)
      ensures SubMask(FoldMask(group, xs), m)
    {
      FoldMaskIsLeast(group, xs, m);
    }
  }

  /**
    The folded mask depends only on which elements occur in the list, so
    permuting the list or repeating or removing duplicate elements does not
    change it.
   */
  lemma FoldMaskDependsOnlyOnElements(group: FlagGroup, xs: seq<Value>, ys: seq<Value>)
    requires forall e :: e in xs <==> e in ys
    ensures FoldMask(group, xs) == FoldMask(group, ys)
  {
    var a, b := FoldMask(group, xs), FoldMask(group, ys);
    forall i | 0 <= i < |xs| && Resolve(group, xs[i]).Some?
      ensures SubMask(Resolve(group, xs[i]).value, b)
    {
      assert xs[i] in ys;
      var j :| 0 <= j < |ys| && ys[j] == xs[i];
    }
    FoldMaskIsLeast(group, xs, b);
    forall j | 0 <= j < |ys| && Resolve(group, ys[j]).Some?
      ensures SubMask(Resolve(group, ys[j]).value, a)
    {
      assert ys[j] in xs;
      var i :| 0 <= i < |xs| && xs[i] == ys[j];
    }
    FoldMaskIsLeast(group, ys, a);
  }

  /** Order independence: any permutation of the list folds to the same mask. */
  lemma FoldMaskPermutation(group: FlagGroup, xs: seq<Value>, ys: seq<Value>)
    requires multiset(xs) == multiset(ys)
    ensures FoldMask(group, xs) == FoldMask(group, ys)
  {
    forall e ensures e in xs <==> e in ys {
      assert e in xs <==> e in multiset(xs);
      assert e in ys <==> e in multiset(ys);
    }
    FoldMaskDependsOnlyOnElements(group, xs, ys);
  }

  /** An element that resolves to nothing (an unknown name, a negative number, a boolean, ...) adds nothing. */
  lemma FoldMaskIgnoresUnresolved(group: FlagGroup, xs: seq<Value>, e: Value)
    requires Resolve(group, e).None?
    ensures FoldMask(group, xs + [e]) == FoldMask(group, xs)
  {
    var cs := Contributions(group, xs + [e]);
    assert cs[..|cs| - 1] == Contributions(group, xs);
  }

  /** The table misspells COMMON_LVB_TRAILING_BYTE, so its correct name is dropped as unknown. */
  lemma TrailingByteKeyMisspelled()
    ensures Lookup(FillAttributes, "COMMON_LVB_TRAILING_BYTE") == None
    ensures Lookup(FillAttributes, "COMMON_LVB_TRAILING_BYT") == Some(COMMON_LVB_TRAILING_BYTE)
  {
  }

  /** The example of a known and an unknown creation flag: only the known one's bit survives. */
  lemma NoWindowWithUnknownFlag()
    ensures FoldMask(CreationFlags, [JString("CREATE_NO_WINDOW"), JString("UNKNOWN_FLAG")]) == CREATE_NO_WINDOW
  {
    var cs := Contributions(CreationFlags, [JString("CREATE_NO_WINDOW"), JString("UNKNOWN_FLAG")]);
    assert cs == [Some(CREATE_NO_WINDOW), None];
    assert cs[..1][..0] == [];
    assert OrFold(cs[..1]) == OrInto(0, Some(CREATE_NO_WINDOW)) == CREATE_NO_WINDOW;
  }
}

=== FILE: json.dfy ===
/**
  The parsed JSON values the configuration is made of (serde_json's `Value`),
  with the accessors the modelled code calls on them. Floating-point numbers
  are kept only as a shape: no accessor used here ever yields one.
 */
module Json {
  import opened Wrappers

  const U64_LIMIT: int := 0x1_0000_0000_0000_0000
  const I64_MIN: int := -0x8000_0000_0000_0000
  const I64_LIMIT: int := 0x8000_0000_0000_0000

  /** An integer literal `JInt(i)` stands for serde's `PosInt`/`NegInt` numbers. */
  datatype Value =
    | JNull
    | JBool(b: bool)
    | JInt(i: int)
    | JFloat
    | JString(str: string)
    | JArray(items: seq<Value>)
    | JObject(fields: map<string, Value>)

  /** `Value::as_str` */
  function AsStr(v: Value): Option<string> {
    if v.JString? then Some(v.str) else None
  }

  /** `Value::as_u64`: only non-negative integers that fit in 64 bits. */
  function AsU64(v: Value): (r: Option<nat>)
    ensures r.Some? ==> r.value < U64_LIMIT
  {
    if v.JInt? && 0 <= v.i < U64_LIMIT then Some(v.i) else None
  }

  /** `Value::as_i64`: integers that fit in a signed 64-bit word. */
  function AsI64(v: Value): (r: Option<int>)
    ensures r.Some? ==> I64_MIN <= r.value < I64_LIMIT
  {
    if v.JInt? && I64_MIN <= v.i < I64_LIMIT then Some(v.i) else None
  }

  /** `Value::as_bool` */
  function AsBool(v: Value): Option<bool> {
    if v.JBool? then Some(v.b) else None
  }

  /** `Value::as_array` */
  function AsArray(v: Value): Option<seq<Value>> {
    if v.JArray? then Some(v.items) else None
  }

  /** `Value::as_object` */
  function AsObject(v: Value): Option<map<string, Value>> {
    if v.JObject? then Some(v.fields) else None
  }

  /** `Map::get` on a JSON object. */
  function Field(obj: map<string, Value>, key: string): Option<Value> {
    if key in obj then Some(obj[key]) else None
  }

  /** `Value::get(key)`: `None` unless `v` is an object holding `key`. */
  function Get(v: Value, key: string): Option<Value> {
    if v.JObject? then Field(v.fields, key) else None
  }

  /** `v[key]` on a `Value`: `Null` unless `v` is an object holding `key`. */
  function Index(v: Value, key: string): Value {
    Get(v, key).GetOr(JNull)
  }

  /** The `filter_map(|e| e.as_str())` idiom: the string elements of an array, in order. */
  function StringElements(items: seq<Value>): (names: seq<string>)
    ensures |names| <= |items|
    ensures forall n :: n in names <==> JString(n) in items
  {
    if items == [] then []
    else
      var rest := StringElements(items[1..]);
      assert forall v :: v in items <==> v == items[0] || v in items[1..];
      if items[0].JString? then [items[0].str] + rest else rest
  }

  /** The filter works element by element: filtering a concatenation concatenates the filtered parts, in order. */
  lemma {:induction false} StringElementsOfConcat(a: seq<Value>, b: seq<Value>)
    ensures StringElements(a + b) == StringElements(a) + StringElements(b)
    decreases |a|
  {
    if a == [] {
      assert a + b == b;
    } else {
      assert (a + b)[1..] == a[1..] + b;
      StringElementsOfConcat(a[1..], b);
    }
  }

  /** A single string element is kept, anything else is dropped. */
  lemma StringElementsOfOne(v: Value)
    ensures StringElements([v]) == if v.JString? then [v.str] else []
  {
  }
}

=== FILE: native.dfy ===
/**
  The Win32 structures the launch configuration is translated into, as
  plain records. Pointers to leaked C strings are kept as the text they point
  to; other pointers and handles (security descriptors, environment blocks,
  standard handles) are kept as their integer address, with 0 for null.
  Sizes are those of the 64-bit layout.
 */
module Native {
  import opened Wrappers
  import opened Strings

  /** `size_of::<SECURITY_ATTRIBUTES>()` on a 64-bit target. */
  const SIZE_OF_SECURITY_ATTRIBUTES: bv32 := 24
  /** `size_of::<STARTUPINFOA>()` on a 64-bit target. */
  const SIZE_OF_STARTUPINFOA: bv32 := 104

  const ISIZE_LIMIT: int := 0x8000_0000_0000_0000
  const USIZE_LIMIT: int := 0x1_0000_0000_0000_0000

  /** A Rust `u32` used as a number (a coordinate, a size, a character count). */
  newtype U32 = x: int | 0 <= x < 0x1_0000_0000

  /** A Rust `u16` used as a number (the `SW_*` show-window code). */
  newtype U16 = x: int | 0 <= x < 0x1_0000

  /** A `PCSTR`/`PSTR`: null, or a pointer to a NUL-terminated copy of `text`. */
  datatype CStrPtr = NullStr | CStr(text: string)

  /** `CString::new(s).into_raw()`: fails when `s` holds an interior NUL. */
  function NewCString(s: string): (r: Option<CStrPtr>)
    ensures r.Some? <==> NulFree(s)
    ensures r.Some? ==> r.value == CStr(s)
  {
    if NulFree(s) then Some(CStr(s)) else None
  }

  /** `BOOL(if b { 1 } else { 0 })` */
  function NativeBool(b: bool): bv32 {
    if b then 1 else 0
  }

  /** Rust's `i as isize` on a `u64` (64-bit target): values from 2^63 up wrap to negative. */
  function U64ToIsize(n: nat): (r: int)
    requires n < USIZE_LIMIT
    ensures -ISIZE_LIMIT <= r < ISIZE_LIMIT
    ensures n < ISIZE_LIMIT ==> r == n
    ensures (n - r) % USIZE_LIMIT == 0
  {
    if n < ISIZE_LIMIT then n else n - USIZE_LIMIT
  }

  /** Rust's `i as u32` on a `u64`: the value modulo 2^32. */
  function TruncU32(n: nat): (r: U32)
    ensures n < 0x1_0000_0000 ==> r as int == n
    ensures (n - r as int) % 0x1_0000_0000 == 0
  {
    (n % 0x1_0000_0000) as U32
  }

  /** Rust's `i as u16` on a `u64`: the value modulo 2^16. */
  function TruncU16(n: nat): (r: U16)
    ensures n < 0x1_0000 ==> r as int == n
    ensures (n - r as int) % 0x1_0000 == 0
  {
    (n % 0x1_0000) as U16
  }

  /** Rust's `v as u16` on a `u32` bit mask: the numeric value of its low 16 bits. */
  function MaskToU16(v: bv32): U16 {
    (v as int % 0x1_0000) as U16
  }

  /** SECURITY_ATTRIBUTES */
  datatype SecurityAttributesNative = SecurityAttributesNative(
    nLength: bv32,
    securityDescriptor: int,
    inheritHandle: bv32)

  /** `SECURITY_ATTRIBUTES::default()`: everything zero, `nLength` included. */
  function ZeroSecurityAttributes(): SecurityAttributesNative {
    SecurityAttributesNative(0, 0, 0)
  }

  /** STARTUPINFOA, without the reserved members that nothing here sets. */
  datatype StartupInfoA = StartupInfoA(
    cb: bv32,
    desktop: CStrPtr,
    title: CStrPtr,
    x: U32,
    y: U32,
    xSize: U32,
    ySize: U32,
    xCountChars: U32,
    yCountChars: U32,
    fillAttribute: bv32,
    flags: bv32,
    showWindow: U16,
    stdInput: int,
    stdOutput: int,
    stdError: int)

  /** `STARTUPINFOA { cb: size_of::<STARTUPINFOA>() as u32, ..Default::default() }` */
  function SizedStartupInfo(): StartupInfoA {
    StartupInfoA(SIZE_OF_STARTUPINFOA, NullStr, NullStr, 0, 0, 0, 0, 0, 0, 0, 0, 0, 0, 0, 0)
  }
}

=== FILE: proxy.dfy ===
/**
  The rule selection and placeholder substitution of src/main.rs, which work
  on the raw JSON tree instead of typed rules: a rule matches when one of the
  string patterns in its "match" array matches the tested text.
 */
module Proxy {
  import opened Wrappers
  import opened Json
  import opened Strings
  import Rules

  // ---------------------------------------------------------------------------
  // Rule search
  // ---------------------------------------------------------------------------

  /** `regex_patterns.iter().any(...)`: some string pattern compiles and matches; other elements never match. */
  function AnyPatternMatches(patterns: seq<Value>, text: string, regex: Rules.RegexOracle): (r: bool)
    ensures r <==> exists k | 0 <= k < |patterns| :: patterns[k].JString? && regex(patterns[k].str, text) == Some(true)
    decreases |patterns|
  {
    if patterns == [] then false
    else
      var rest := AnyPatternMatches(patterns[1..], text, regex);
      assert forall k | 1 <= k < |patterns| :: patterns[1..][k - 1] == patterns[k];
      (patterns[0].JString? && regex(patterns[0].str, text) == Some(true)) || rest
  }

  /** The `find` closure: the named rule exists and its "match" value is an array with a matching pattern. */
  predicate RuleMatches(rules: map<string, Value>, name: string, text: string, regex: Rules.RegexOracle) {
    name in rules && Index(rules[name], "match").JArray? && AnyPatternMatches(Index(rules[name], "match").items, text, regex)
  }

  /** `names.iter().find(...)`: the first name, in list order, whose rule matches `text`. */
  function FirstMatchingName(names: seq<string>, rules: map<string, Value>, text: string, regex: Rules.RegexOracle): (r: Option<string>)
    ensures r.None? <==> forall i | 0 <= i < |names| :: !RuleMatches(rules, names[i], text, regex)
    ensures r.Some? ==> exists i | 0 <= i < |names| ::
              && names[i] == r.value
              && RuleMatches(rules, names[i], text, regex)
              && forall j | 0 <= j < i :: !RuleMatches(rules, names[j], text, regex)
    decreases |names|
  {
    if names == [] then None
    else if RuleMatches(rules, names[0], text, regex) then Some(names[0])
    else
      var r := FirstMatchingName(names[1..], rules, text, regex);
      assert forall i | 1 <= i < |names| :: names[1..][i - 1] == names[i];
      r
  }

  /** `rules.get(name)` on a `Value` finds nothing unless `rules` is an object. */
  function RulesObject(rules: Value): map<string, Value> {
    AsObject(rules).GetOr(map[])
  }

  /** `search_for_rule`: the string names of the mapping array, searched in order against `file_name`. */
  function SearchForRule(mappingValue: Value, rules: Value, fileName: string, regex: Rules.RegexOracle): (r: Option<string>)
    ensures !mappingValue.JArray? ==> r.None?
    ensures r.Some? ==> JString(r.value) in mappingValue.items && RuleMatches(RulesObject(rules), r.value, fileName, regex)
  {
    match AsArray(mappingValue)
    case None => None
    case Some(items) => FirstMatchingName(StringElements(items), RulesObject(rules), fileName, regex)
  }

  /** Filtering out the non-string names and then searching finds the first matching string name of the array. */
  lemma {:induction false} FilteredSearchIsFirstInArray(items: seq<Value>, rules: map<string, Value>, text: string, regex: Rules.RegexOracle)
    ensures var r := FirstMatchingName(StringElements(items), rules, text, regex);
            && (r.None? <==> forall i | 0 <= i < |items| && items[i].JString? :: !RuleMatches(rules, items[i].str, text, regex))
            && (r.Some? ==> exists i | 0 <= i < |items| ::
                  && items[i] == JString(r.value)
                  && RuleMatches(rules, r.value, text, regex)
                  && forall j | 0 <= j < i && items[j].JString? :: !RuleMatches(rules, items[j].str, text, regex))
    decreases |items|
  {
    if items != [] {
      FilteredSearchIsFirstInArray(items[1..], rules, text, regex);
      assert forall i | 1 <= i < |items| :: items[1..][i - 1] == items[i];
      if items[0].JString? {
        var names := StringElements(items);
        assert names == [items[0].str] + StringElements(items[1..]);
        assert names[1..] == StringElements(items[1..]);
      }
    }
  }

  /**
    `search_for_rule` returns the first string name of the mapping array, in
    array order, whose rule matches the file name, and `None` when there is
    none or the mapping value is not an array.
   */
  lemma SearchForRuleFindsFirstMatch(mappingValue: Value, rules: Value, fileName: string, regex: Rules.RegexOracle)
    ensures !mappingValue.JArray? ==> SearchForRule(mappingValue, rules, fileName, regex).None?
    ensures mappingValue.JArray? ==>
              var items := mappingValue.items;
              var r := SearchForRule(mappingValue, rules, fileName, regex);
              && (r.None? <==> forall i | 0 <= i < |items| && items[i].JString? :: !RuleMatches(RulesObject(rules), items[i].str, fileName, regex))
              && (r.Some? ==> exists i | 0 <= i < |items| ::
                    && items[i] == JString(r.value)
                    && RuleMatches(RulesObject(rules), r.value, fileName, regex)
                    && forall j | 0 <= j < i && items[j].JString? :: !RuleMatches(RulesObject(rules), items[j].str, fileName, regex))
  {
    if mappingValue.JArray? {
      FilteredSearchIsFirstInArray(mappingValue.items, RulesObject(rules), fileName, regex);
    }
  }

  /** A pattern that does not compile only fails itself: a later pattern of the same rule can still match. */
  lemma BrokenPatternDoesNotStopSearch(broken: string, good: string, text: string, regex: Rules.RegexOracle)
    requires regex(broken, text).None?
    requires regex(good, text) == Some(true)
    ensures AnyPatternMatches([JString(broken), JString(good)], text, regex)
    ensures !AnyPatternMatches([JString(broken)], text, regex)
  {
    assert [JString(broken), JString(good)][1].str == good;
  }

  // ---------------------------------------------------------------------------
  // The extension lookup inside `main`
  // ---------------------------------------------------------------------------

  /** Indexing a serde_json `Map` panics on a missing key. */
  datatype MapLookup = Panic | Found(names: Option<seq<string>>)

  /**
    The extension lookup as written: `mappings[ext]` indexes the `Map`
    obtained with `as_object()`, which panics when the extension is not a key.
   */
  function ExtensionRuleNamesAsWritten(mappings: map<string, Value>, extension: Option<string>): MapLookup {
    match extension
    case None => Found(None)
    case Some(ext) =>
      if ext !in mappings then Panic
      else
        match AsArray(mappings[ext])
        case None => Found(None)
        case Some(items) =>
          var names := StringElements(items);
          Found(if |names| == 0 then None else Some(names))
  }

  /**
    The extension lookup as evidently intended: the string names listed for
    the extension, and `None` when there is no extension, no such key, no
    array, or no string name in it. There is no "*" fallback.
   */
  function ExtensionRuleNames(mappings: map<string, Value>, extension: Option<string>): (r: Option<seq<string>>)
    ensures r.None? <==>
              || extension.None?
              || extension.value !in mappings
              || !mappings[extension.value].JArray?
              || StringElements(mappings[extension.value].items) == []
    ensures r.Some? ==> r.value == StringElements(mappings[extension.value].items)
  {
    match extension
    case None => None
    case Some(ext) =>
      if ext !in mappings then None
      else
        match AsArray(mappings[ext])
        case None => None
        case Some(items) =>
          var names := StringElements(items);
          if |names| == 0 then None else Some(names)
  }

  /** The discrepancy: a file whose extension has no mapping makes the written code panic. */
  lemma MissingExtensionKeyPanics()
    ensures ExtensionRuleNamesAsWritten(map["*" := JArray([JString("any")])], Some("txt")) == Panic
    ensures ExtensionRuleNames(map["*" := JArray([JString("any")])], Some("txt")) == None
  {
  }

  /** Whenever the written lookup does not panic, it agrees with the corrected one. */
  lemma CorrectedLookupAgreesWithoutPanic(mappings: map<string, Value>, extension: Option<string>)
    requires ExtensionRuleNamesAsWritten(mappings, extension) != Panic
    ensures ExtensionRuleNamesAsWritten(mappings, extension) == Found(ExtensionRuleNames(mappings, extension))
  {
  }

  /**
    The name of the first rule for the extension whose patterns match the
    whole target path (not only its base name); `None` when the extension
    has no usable list. It is built on the corrected lookup
    `ExtensionRuleNames`: for an extension that is not a key of the mapping
    it gives `None`, where the code as written panics
    (`ExtensionRuleNamesAsWritten`).
   */
  function MainFirstMatchingRule(mappings: map<string, Value>, rules: map<string, Value>, extension: Option<string>, targetPath: string, regex: Rules.RegexOracle): (r: Option<string>)
    ensures extension.None? ==> r.None?
    ensures ExtensionRuleNames(mappings, extension).None? ==> r.None?
    ensures r.Some? ==>
              && extension.Some?
              && extension.value in mappings
              && mappings[extension.value].JArray?
              && JString(r.value) in mappings[extension.value].items
              && RuleMatches(rules, r.value, targetPath, regex)
    ensures ExtensionRuleNames(mappings, extension).Some? ==>
              var names := ExtensionRuleNames(mappings, extension).value;
              && (r.None? <==> forall i | 0 <= i < |names| :: !RuleMatches(rules, names[i], targetPath, regex))
              && (r.Some? ==> exists i | 0 <= i < |names| ::
                    && names[i] == r.value
                    && forall j | 0 <= j < i :: !RuleMatches(rules, names[j], targetPath, regex))
  {
    match ExtensionRuleNames(mappings, extension)
    case None => None
    case Some(names) => FirstMatchingName(names, rules, targetPath, regex)
  }

  // ---------------------------------------------------------------------------
  // Placeholder substitution
  // ---------------------------------------------------------------------------

  /** `format!("~~${}", index)` */
  function Placeholder(index: nat): string {
    "~~$" + Decimal(index)
  }

  /** Distinct indices have distinct placeholders. */
  lemma PlaceholderInjective(i: nat, j: nat)
    requires Placeholder(i) == Placeholder(j)
    ensures i == j
  {
    assert Placeholder(i)[3..] == Decimal(i);
    assert Placeholder(j)[3..] == Decimal(j);
    DecimalInjective(i, j);
  }

  /** The three strings the substitution loop rewrites. */
  datatype Expanded = Expanded(command: string, arguments: string, wd: Option<string>)

  /**
    One pass of the loop for `index`: command and arguments are rewritten
    only when they contain the placeholder, the working directory always
    (when there is one).
   */
  function SubstituteStep(e: Expanded, index: nat, arg: string): Expanded {
    var placeholder := Placeholder(index);
    Expanded(
      if Contains(e.command, placeholder) then Replace(e.command, placeholder, arg) else e.command,
      if Contains(e.arguments, placeholder) then Replace(e.arguments, placeholder, arg) else e.arguments,
      match e.wd
      case Some(wd) => Some(Replace(wd, placeholder, arg))
      case None => None)
  }

  /** The loop from `index` on, indices ascending. */
  function SubstituteFrom(e: Expanded, args: seq<string>, index: nat): (r: Expanded)
    ensures r.wd.None? <==> e.wd.None?
    decreases |args| - index
  {
    if index >= |args| then e
    else SubstituteFrom(SubstituteStep(e, index, args[index]), args, index + 1)
  }

  /** The substitution loop of `main` over all command-line arguments. */
  function SubstitutePlaceholders(command: string, arguments: string, wd: Option<string>, args: seq<string>): (r: Expanded)
    ensures r.command == ReplaceAllFrom(command, args, 0)
    ensures r.arguments == ReplaceAllFrom(arguments, args, 0)
    ensures r.wd.None? <==> wd.None?
    ensures wd.Some? ==> r.wd == Some(ReplaceAllFrom(wd.value, args, 0))
  {
    SubstitutionIsPerFieldReplace(Expanded(command, arguments, wd), args, 0);
    SubstituteFrom(Expanded(command, arguments, wd), args, 0)
  }

  /** The reference: one string, every `~~$i` replaced by `args[i]`, for `i` ascending from `index`, unconditionally. */
  function ReplaceAllFrom(s: string, args: seq<string>, index: nat): string
    decreases |args| - index
  {
    if index >= |args| then s
    else ReplaceAllFrom(Replace(s, Placeholder(index), args[index]), args, index + 1)
  }

  /** The `contains` guard changes nothing: replacing in a string without the placeholder is the identity. */
  lemma ContainsGuardIsRedundant(s: string, placeholder: string, arg: string)
    ensures (if Contains(s, placeholder) then Replace(s, placeholder, arg) else s) == Replace(s, placeholder, arg)
  {
    if !Contains(s, placeholder) {
      ReplaceWithoutOccurrence(s, placeholder, arg);
    }
  }

  /** The loop treats each string on its own, as the unconditional reference does. */
  lemma {:induction false} SubstitutionIsPerFieldReplace(e: Expanded, args: seq<string>, index: nat)
    ensures SubstituteFrom(e, args, index).command == ReplaceAllFrom(e.command, args, index)
    ensures SubstituteFrom(e, args, index).arguments == ReplaceAllFrom(e.arguments, args, index)
    ensures SubstituteFrom(e, args, index).wd ==
              (match e.wd case Some(wd) => Some(ReplaceAllFrom(wd, args, index)) case None => None)
    decreases |args| - index
  {
    if index < |args| {
      ContainsGuardIsRedundant(e.command, Placeholder(index), args[index]);
      ContainsGuardIsRedundant(e.arguments, Placeholder(index), args[index]);
      SubstitutionIsPerFieldReplace(SubstituteStep(e, index, args[index]), args, index + 1);
    }
  }

  /** A string with no "~~$" in it is left unchanged by every placeholder. */
  lemma {:induction false} NoMarkerNoChange(s: string, args: seq<string>, index: nat)
    requires !Contains(s, "~~$")
    ensures ReplaceAllFrom(s, args, index) == s
    decreases |args| - index
  {
    if index < |args| {
      if Contains(s, Placeholder(index)) {
        ContainsPrefixOf(s, "~~$", Placeholder(index));
      }
      ReplaceWithoutOccurrence(s, Placeholder(index), args[index]);
      NoMarkerNoChange(s, args, index + 1);
    }
  }

  /** Strings without any "~~$" pass through the whole loop unchanged, and a missing working directory stays missing. */
  lemma UnmarkedStringsUnchanged(command: string, arguments: string, wd: Option<string>, args: seq<string>)
    requires !Contains(command, "~~$") && !Contains(arguments, "~~$")
    requires wd.Some? ==> !Contains(wd.value, "~~$")
    ensures SubstitutePlaceholders(command, arguments, wd, args) == Expanded(command, arguments, wd)
  {
    SubstitutionIsPerFieldReplace(Expanded(command, arguments, wd), args, 0);
    NoMarkerNoChange(command, args, 0);
    NoMarkerNoChange(arguments, args, 0);
    if wd.Some? {
      NoMarkerNoChange(wd.value, args, 0);
    }
  }

  /** Once no "~~$" is left in the result, expanding it again changes nothing. */
  lemma ExpansionIdempotentOnceResolved(command: string, arguments: string, wd: Option<string>, args: seq<string>)
    requires var e := SubstitutePlaceholders(command, arguments, wd, args);
             && !Contains(e.command, "~~$") && !Contains(e.arguments, "~~$")
             && (e.wd.Some? ==> !Contains(e.wd.value, "~~$"))
    ensures var e := SubstitutePlaceholders(command, arguments, wd, args);
            SubstitutePlaceholders(e.command, e.arguments, e.wd, args) == e
  {
    var e := SubstitutePlaceholders(command, arguments, wd, args);
    UnmarkedStringsUnchanged(e.command, e.arguments, e.wd, args);
  }

  /** "~~$0" does not occur in "~~$10". */
  lemma TenHoldsNoPlaceholderZero(arg: string)
    ensures Replace("~~$10", Placeholder(0), arg) == "~~$10"
  {
    assert Placeholder(0) == "~~$0";
    var s := "~~$10";
    assert !Contains(s[5..], "~~$0");
    assert !Contains(s[4..], "~~$0");
    assert !Contains(s[3..], "~~$0");
    assert !Contains(s[2..], "~~$0");
    assert s[1..][1..] == s[2..] && s[1..][1] != "~~$0"[1];
    assert !Contains(s[1..], "~~$0");
    assert s[3] != "~~$0"[3];
    assert !Contains(s, "~~$0");
    ReplaceWithoutOccurrence(s, "~~$0", arg);
  }

  /** "~~$1" is a prefix of "~~$10", so replacing it leaves the trailing "0". */
  lemma TenStartsWithPlaceholderOne(arg: string)
    ensures Replace("~~$10", Placeholder(1), arg) == arg + "0"
  {
    assert Placeholder(1) == "~~$1";
    var s := "~~$10";
    assert "~~$1" <= s;
    assert s[4..] == "0";
    assert Replace("0", "~~$1", arg) == "0";
  }

  /**
    Indices are replaced in ascending order, so "~~$10" is caught by "~~$1"
    first: it becomes `args[1]` followed by "0", which later indices may still rewrite.
   */
  lemma PlaceholderTenReadsAsOne(args: seq<string>)
    requires |args| >= 2
    ensures ReplaceAllFrom("~~$10", args, 0) == ReplaceAllFrom(args[1] + "0", args, 2)
    ensures !Contains(args[1] + "0", "~~$") ==> ReplaceAllFrom("~~$10", args, 0) == args[1] + "0"
  {
    TenHoldsNoPlaceholderZero(args[0]);
    TenStartsWithPlaceholderOne(args[1]);
    if !Contains(args[1] + "0", "~~$") {
      NoMarkerNoChange(args[1] + "0", args, 2);
    }
  }
}

=== FILE: rules.dfy ===
/**
  The rule set of src/rules.rs and `FassocRules::find_suitable_command`, which
  picks the command for a file: choose the extension's mapping list (or the
  "*" list), then walk it in order, returning the command of the first entry
  that qualifies. File contents are read lazily and cached once read.

  The regex engine and the file read are oracles: `regex(pattern, text)` is
  `None` when `pattern` does not compile and otherwise says whether it matches
  somewhere in `text`; `read(k)` is the outcome of the k-th read attempt.
 */
module Rules {
  import opened Wrappers
  import opened Json
  import opened Structs
  import opened Native

  datatype FindCommandError = CannotConvertPath | NoMappingFound | NoMatchFound

  datatype MatcherError = RegexCompileError | NoRegexError

  /** A matcher: the command it leads to, an optional file-name pattern and an optional content pattern. */
  datatype Matcher = Matcher(command: string, regexf: Option<string>, regexc: Option<string>)

  /** The optional startup settings of a command. */
  datatype Extras = Extras(
    desktop: Option<string>,
    title: Option<string>,
    x: Option<U32>,
    y: Option<U32>,
    xSize: Option<U32>,
    ySize: Option<U32>,
    xCountChars: Option<U32>,
    yCountChars: Option<U32>,
    fillAttribute: Option<seq<Value>>,
    flags: Option<seq<Value>>,
    showWindow: Option<seq<Value>>)

  /** A command: what to launch and how. */
  datatype Command = Command(
    path: string,
    arguments: Option<string>,
    cwd: Option<string>,
    processAttributes: Option<SecurityAttributes>,
    threadAttributes: Option<SecurityAttributes>,
    inheritHandles: Option<bool>,
    creationFlags: Option<seq<Value>>,
    extras: Option<Extras>)

  /** The whole rule file: mapping lists by extension (or "*"), matchers and commands by name. */
  datatype FassocRules = FassocRules(
    mappings: map<string, seq<string>>,
    matchers: map<string, Matcher>,
    commands: map<string, Command>)

  type RegexOracle = (string, string) -> Option<bool>

  datatype Oracles = Oracles(regex: RegexOracle, read: nat -> Option<string>)

  /** `Matcher::rmatch_file` */
  function RMatchFile(regstr: Option<string>, text: string, regex: RegexOracle): (r: Result<bool, MatcherError>)
    ensures r == Failure(NoRegexError) <==> regstr.None?
    ensures r == Failure(RegexCompileError) <==> regstr.Some? && regex(regstr.value, text).None?
    ensures r.Success? ==> regstr.Some? && regex(regstr.value, text) == Some(r.value)
  {
    match regstr
    case None => Failure(NoRegexError)
    case Some(pattern) =>
      match regex(pattern, text)
      case None => Failure(RegexCompileError)
      case Some(found) => Success(found)
  }

  /** The file-name test of one matcher: no `regexf`, or a `regexf` that compiles and matches the base name. */
  predicate NameTestPasses(m: Matcher, fileName: string, regex: RegexOracle) {
    m.regexf.None? || RMatchFile(m.regexf, fileName, regex).GetOr(false)
  }

  /** The content test of one matcher against contents already read. */
  predicate ContentTestPasses(m: Matcher, content: string, regex: RegexOracle) {
    RMatchFile(m.regexc, content, regex).GetOr(false)
  }

  /** The lazily filled content cache, with the number of read attempts made so far. */
  datatype Probe = Probe(content: Option<string>, attempts: nat)

  /** `ensure_contents_read`: read only when nothing is cached; a failed read leaves the cache empty. */
  function EnsureContentsRead(probe: Probe, read: nat -> Option<string>): (p: Probe)
    ensures probe.content.Some? ==> p == probe
    ensures probe.content.None? ==> p.attempts == probe.attempts + 1 && p.content == read(probe.attempts)
  {
    if probe.content.None? then Probe(read(probe.attempts), probe.attempts + 1) else probe
  }

  /**
    Test one matcher. The name test comes first; contents are read exactly
    when it passed, the matcher has a content pattern and nothing is cached,
    so a read that failed earlier is attempted again.
   */
  function TestMatcher(m: Matcher, fileName: string, env: Oracles, probe: Probe): (r: (bool, Probe))
    ensures r.1 != probe ==>
              && NameTestPasses(m, fileName, env.regex)
              && m.regexc.Some?
              && probe.content.None?
              && r.1 == Probe(env.read(probe.attempts), probe.attempts + 1)
    ensures (NameTestPasses(m, fileName, env.regex) && m.regexc.Some? && probe.content.None?)
              ==> r.1 == Probe(env.read(probe.attempts), probe.attempts + 1)
    ensures r.0 <==> && NameTestPasses(m, fileName, env.regex)
                     && (m.regexc.None? || (r.1.content.Some? && ContentTestPasses(m, r.1.content.value, env.regex)))
  {
    if !NameTestPasses(m, fileName, env.regex) then (false, probe)
    else if m.regexc.None? then (true, probe)
    else
      var p := EnsureContentsRead(probe, env.read);
      match p.content
      case None => (false, p)
      case Some(content) => (ContentTestPasses(m, content, env.regex), p)
  }

  datatype Verdict = Accept(command: Command) | Pass

  /**
    One entry of the mapping list. A matcher whose command exists is tested;
    a name that is not a matcher but is a command is accepted at once; any
    other entry, and a matcher whose command is missing, is passed over.
   */
  function TryEntry(rules: FassocRules, entry: string, fileName: string, env: Oracles, probe: Probe): (r: (Verdict, Probe))
    ensures r.1 != probe ==> r.1 == Probe(env.read(probe.attempts), probe.attempts + 1) && probe.content.None?
    ensures r.0.Accept? ==> r.0.command in rules.commands.Values
  {
    if entry in rules.matchers then
      var m := rules.matchers[entry];
      if m.command in rules.commands then
        var (ok, p) := TestMatcher(m, fileName, env, probe);
        (if ok then Accept(rules.commands[m.command]) else Pass, p)
      else (Pass, probe)
    else if entry in rules.commands then (Accept(rules.commands[entry]), probe)
    else (Pass, probe)
  }

  datatype WalkResult = WalkResult(found: Option<Command>, probe: Probe)

  /**
    The loop over the mapping list, in list order. Contents, once cached, are
    never read again; every read attempt but the last one failed; the cache
    holds the outcome of the last attempt.
   */
  function Walk(rules: FassocRules, entries: seq<string>, fileName: string, env: Oracles, probe: Probe): (w: WalkResult)
    ensures probe.attempts <= w.probe.attempts
    ensures w.probe.attempts == probe.attempts ==> w.probe == probe
    ensures probe.content.Some? ==> w.probe == probe
    ensures w.probe.attempts > probe.attempts ==> w.probe.content == env.read(w.probe.attempts - 1)
    ensures forall k | probe.attempts <= k < w.probe.attempts - 1 :: env.read(k).None?
    ensures w.found.Some? ==> w.found.value in rules.commands.Values
    decreases |entries|
  {
    if entries == [] then WalkResult(None, probe)
    else
      var (verdict, p) := TryEntry(rules, entries[0], fileName, env, probe);
      match verdict
      case Accept(command) => WalkResult(Some(command), p)
      case Pass => Walk(rules, entries[1..], fileName, env, p)
  }

  /** `self.mappings.get(ext).or(self.mappings.get("*"))`: the extension's list wins over "*". */
  function SelectMapping(mappings: map<string, seq<string>>, extension: Option<string>): (r: Option<seq<string>>)
    ensures extension.Some? && extension.value in mappings ==> r == Some(mappings[extension.value])
    ensures (extension.None? || extension.value !in mappings) && "*" in mappings ==> r == Some(mappings["*"])
    ensures r.None? <==> (extension.None? || extension.value !in mappings) && "*" !in mappings
  {
    if extension.Some? && extension.value in mappings then Some(mappings[extension.value])
    else if "*" in mappings then Some(mappings["*"])
    else None
  }

  /** The outcome of one resolution, with the number of content read attempts it made. */
  datatype Resolution = Resolution(result: Result<Command, FindCommandError>, attempts: nat)

  /**
    `FassocRules::find_suitable_command`. `fileName` is the path's base name
    (`None` when it cannot be obtained) and `extension` its extension.
   */
  function FindSuitableCommand(rules: FassocRules, fileName: Option<string>, extension: Option<string>, env: Oracles): (r: Resolution)
    ensures fileName.None? ==> r == Resolution(Failure(CannotConvertPath), 0)
    ensures fileName.Some? && SelectMapping(rules.mappings, extension).None? ==> r == Resolution(Failure(NoMappingFound), 0)
    ensures r.result.Success? ==> r.result.value in rules.commands.Values
    ensures forall k | 0 <= k < r.attempts - 1 :: env.read(k).None?
    ensures env.read(0).Some? ==> r.attempts <= 1
  {
    match fileName
    case None => Resolution(Failure(CannotConvertPath), 0)
    case Some(name) =>
      match SelectMapping(rules.mappings, extension)
      case None => Resolution(Failure(NoMappingFound), 0)
      case Some(entries) =>
        var w := Walk(rules, entries, name, env, Probe(None, 0));
        match w.found
        case Some(command) => Resolution(Success(command), w.probe.attempts)
        case None => Resolution(Failure(NoMatchFound), w.probe.attempts)
  }

  // ---------------------------------------------------------------------------
  // A stateless reference: what each entry decides when the file's contents are fixed
  // ---------------------------------------------------------------------------

  /** The file reads the same way on every attempt. */
  ghost predicate Stable(env: Oracles, content: Option<string>) {
    forall k :: env.read(k) == content
  }

  /** Whether a matcher accepts the file, given its name and (possibly unreadable) contents. */
  predicate MatcherAccepts(m: Matcher, fileName: string, regex: RegexOracle, content: Option<string>) {
    && NameTestPasses(m, fileName, regex)
    && (m.regexc.None? || (content.Some? && ContentTestPasses(m, content.value, regex)))
  }

  /** The verdict on one entry, independent of any cache. */
  function EntryVerdict(rules: FassocRules, entry: string, fileName: string, regex: RegexOracle, content: Option<string>): Verdict {
    if entry in rules.matchers then
      var m := rules.matchers[entry];
      if m.command in rules.commands && MatcherAccepts(m, fileName, regex, content)
      then Accept(rules.commands[m.command])
      else Pass
    else if entry in rules.commands then Accept(rules.commands[entry])
    else Pass
  }

  /** With fixed contents, the cached test of an entry agrees with the stateless verdict and keeps the cache consistent. */
  lemma TryEntryAgreesWithVerdict(rules: FassocRules, entry: string, fileName: string, env: Oracles, probe: Probe, content: Option<string>)
    requires Stable(env, content)
    requires probe.content.Some? ==> probe.content == content
    ensures TryEntry(rules, entry, fileName, env, probe).0 == EntryVerdict(rules, entry, fileName, env.regex, content)
    ensures var p := TryEntry(rules, entry, fileName, env, probe).1; p.content.Some? ==> p.content == content
  {
    assert env.read(probe.attempts) == content;
  }

  /** With fixed contents, the walk returns the command of the first accepting entry, and nothing when none accepts. */
  lemma {:induction false} WalkFindsFirstAcceptingEntry(rules: FassocRules, entries: seq<string>, fileName: string, env: Oracles, probe: Probe, content: Option<string>)
    requires Stable(env, content)
    requires probe.content.Some? ==> probe.content == content
    ensures (forall i | 0 <= i < |entries| :: EntryVerdict(rules, entries[i], fileName, env.regex, content).Pass?)
            ==> Walk(rules, entries, fileName, env, probe).found.None?
    ensures forall i | 0 <= i < |entries| && EntryVerdict(rules, entries[i], fileName, env.regex, content).Accept?
                       && (forall j | 0 <= j < i :: EntryVerdict(rules, entries[j], fileName, env.regex, content).Pass?)
              :: Walk(rules, entries, fileName, env, probe).found == Some(EntryVerdict(rules, entries[i], fileName, env.regex, content).command)
    decreases |entries|
  {
    if entries != [] {
      TryEntryAgreesWithVerdict(rules, entries[0], fileName, env, probe, content);
      var p := TryEntry(rules, entries[0], fileName, env, probe).1;
      WalkFindsFirstAcceptingEntry(rules, entries[1..], fileName, env, p, content);
      forall i | 1 <= i < |entries| ensures entries[1..][i - 1] == entries[i] { }
    }
  }

  /**
    With fixed contents, resolution returns the command of the first accepting
    entry of the chosen list, and `NoMatchFound` when none accepts; the "*"
    list is not consulted when the extension has a list of its own.
   */
  lemma ResolvesToFirstAcceptingEntry(rules: FassocRules, fileName: string, extension: Option<string>, env: Oracles, content: Option<string>, entries: seq<string>)
    requires Stable(env, content)
    requires SelectMapping(rules.mappings, extension) == Some(entries)
    ensures (forall i | 0 <= i < |entries| :: EntryVerdict(rules, entries[i], fileName, env.regex, content).Pass?)
            ==> FindSuitableCommand(rules, Some(fileName), extension, env).result == Failure(NoMatchFound)
    ensures forall i | 0 <= i < |entries| && EntryVerdict(rules, entries[i], fileName, env.regex, content).Accept?
                       && (forall j | 0 <= j < i :: EntryVerdict(rules, entries[j], fileName, env.regex, content).Pass?)
              :: FindSuitableCommand(rules, Some(fileName), extension, env).result
                 == Success(EntryVerdict(rules, entries[i], fileName, env.regex, content).command)
  {
    WalkFindsFirstAcceptingEntry(rules, entries, fileName, env, Probe(None, 0), content);
  }

  /** Without any content pattern on the walked matchers, the file is never read. */
  lemma {:induction false} NoContentPatternNoRead(rules: FassocRules, entries: seq<string>, fileName: string, env: Oracles, probe: Probe)
    requires forall e | e in entries && e in rules.matchers :: rules.matchers[e].regexc.None?
    ensures Walk(rules, entries, fileName, env, probe).probe == probe
    decreases |entries|
  {
    if entries != [] {
      assert entries[0] in entries;
      assert forall e | e in entries[1..] :: e in entries;
      NoContentPatternNoRead(rules, entries[1..], fileName, env, probe);
    }
  }

  /** A pattern that fails to compile makes its matcher fail, without reading for a broken name pattern. */
  lemma RegexCompileErrorIsNoMatch(m: Matcher, fileName: string, env: Oracles, probe: Probe)
    requires || (m.regexf.Some? && env.regex(m.regexf.value, fileName).None?)
             || (m.regexc.Some? && forall t :: env.regex(m.regexc.value, t).None?)
    ensures !TestMatcher(m, fileName, env, probe).0
    ensures m.regexf.Some? && env.regex(m.regexf.value, fileName).None? ==> TestMatcher(m, fileName, env, probe).1 == probe
  {
  }

  /** Entries are tried in list order, not grouped by pattern kind: a content matcher listed first beats a name matcher listed second, at the cost of one read. */
  lemma ListOrderBeatsPatternKind()
    ensures
      var sh := Command("/bin/sh", None, None, None, None, None, None, None);
      var editor := Command("editor", None, None, None, None, None, None, None);
      var rules := FassocRules(
        map["txt" := ["byContent", "byName"]],
        map["byContent" := Matcher("sh", None, Some("^#!")), "byName" := Matcher("editor", Some("txt"), None)],
        map["sh" := sh, "editor" := editor]);
      var env := Oracles((p: string, t: string) => Some(true), (k: nat) => Some("#!/bin/sh"));
      FindSuitableCommand(rules, Some("a.txt"), Some("txt"), env) == Resolution(Success(sh), 1)
  {
  }

  /**
    A failed read is not cached: the next content matcher reads again. Here
    the first read fails, so the first matcher fails, and the second matcher
    succeeds on the second read.
   */
  lemma FailedReadIsRetried()
    ensures
      var first := Command("first", None, None, None, None, None, None, None);
      var second := Command("second", None, None, None, None, None, None, None);
      var rules := FassocRules(
        map["txt" := ["m1", "m2"]],
        map["m1" := Matcher("c1", None, Some("p")), "m2" := Matcher("c2", None, Some("p"))],
        map["c1" := first, "c2" := second]);
      var env := Oracles((p: string, t: string) => Some(true), (k: nat) => if k == 0 then None else Some("x"));
      FindSuitableCommand(rules, Some("a.txt"), Some("txt"), env) == Resolution(Success(second), 2)
  {
  }

  /** A shebang content rule listed before an unconditional fallback. */
  lemma ShebangScenario(regex: RegexOracle)
    requires regex("^#!", "#!/bin/sh") == Some(true)
    requires regex("^#!", "hello") == Some(false)
    ensures
      var byContent := Command("byContent", None, None, None, None, None, None, None);
      var fallback := Command("fallback", None, None, None, None, None, None, None);
      var rules := FassocRules(
        map["txt" := ["byContent", "fallback"]],
        map["byContent" := Matcher("c1", None, Some("^#!")), "fallback" := Matcher("c2", None, None)],
        map["c1" := byContent, "c2" := fallback]);
      && FindSuitableCommand(rules, Some("x.txt"), Some("txt"), Oracles(regex, (k: nat) => Some("#!/bin/sh"))).result == Success(byContent)
      && FindSuitableCommand(rules, Some("x.txt"), Some("txt"), Oracles(regex, (k: nat) => Some("hello"))).result == Success(fallback)
  {
  }

  /** A file without an extension resolves through the "*" list, without reading the file. */
  lemma WildcardScenario(env: Oracles)
    ensures
      var unconditional := Command("unconditional", None, None, None, None, None, None, None);
      var rules := FassocRules(
        map["*" := ["unconditional"]],
        map["unconditional" := Matcher("u", None, None)],
        map["u" := unconditional]);
      FindSuitableCommand(rules, Some("README"), None, env) == Resolution(Success(unconditional), 0)
  {
  }
}

=== FILE: strings.dfy ===
/**
  The string operations of Rust's `str` that the modelled code relies on:
  `contains`, `ends_with`, `replace`, decimal formatting of an index, and
  the interior-NUL test `CString::new` performs.
 */
module Strings {

  /** `haystack.contains(needle)`; the empty needle occurs everywhere. */
  predicate Contains(haystack: string, needle: string)
    decreases |haystack|
  {
    needle <= haystack || (haystack != [] && Contains(haystack[1..], needle))
  }

  /** `s.ends_with(suffix)` */
  predicate EndsWith(s: string, suffix: string) {
    |suffix| <= |s| && s[|s| - |suffix|..] == suffix
  }

  /** `CString::new(s)` succeeds exactly when `s` has no NUL character. */
  predicate NulFree(s: string) {
    '\0' !in s
  }

  /**
    `s.replace(pat, rep)`: every non-overlapping occurrence of `pat`, found
    left to right, is replaced by `rep`. With an empty pattern Rust puts
    `rep` before every character and once more at the end.
   */
  function Replace(s: string, pat: string, rep: string): (r: string)
    ensures pat != [] && rep == pat ==> r == s
    ensures pat != [] && |rep| == |pat| ==> |r| == |s|
    ensures pat == [] ==> |r| == |s| + (|s| + 1) * |rep|
    decreases |s|
  {
    if pat == [] then
      if s == [] then rep else rep + [s[0]] + Replace(s[1..], pat, rep)
    else if s == [] then []
    else if pat <= s then rep + Replace(s[|pat|..], pat, rep)
    else [s[0]] + Replace(s[1..], pat, rep)
  }

  /** A string holding no occurrence of `pat` is left as it is by `Replace`. */
  lemma {:induction false} ReplaceWithoutOccurrence(s: string, pat: string, rep: string)
    requires !Contains(s, pat)
    ensures Replace(s, pat, rep) == s
    decreases |s|
  {
    if s != [] {
      ReplaceWithoutOccurrence(s[1..], pat, rep);
      assert s == [s[0]] + s[1..];
    }
  }

  /** No occurrence of `pat` starts at any of the first `n` positions of `s`. */
  predicate NoOccurrenceBefore(s: string, pat: string, n: nat) {
    forall k | 0 <= k < n && k <= |s| :: !(pat <= s[k..])
  }

  /** An occurrence at the start is substituted and replacing resumes after it. */
  lemma ReplaceAtStart(pat: string, rep: string, b: string)
    requires pat != []
    ensures Replace(pat + b, pat, rep) == rep + Replace(b, pat, rep)
  {
    assert pat <= pat + b;
    assert (pat + b)[|pat|..] == b;
  }

  /** Without an occurrence at the start, the first character is copied. */
  lemma ReplaceCopiesHead(s: string, pat: string, rep: string)
    requires pat != [] && s != [] && !(pat <= s)
    ensures Replace(s, pat, rep) == [s[0]] + Replace(s[1..], pat, rep)
  {
  }

  /**
    Before the first occurrence, the first character of `a` is copied and the
    rest of the text still has no earlier occurrence.
   */
  lemma ReplaceBeforeOccurrence(a: string, pat: string, rep: string, b: string)
    requires pat != [] && a != []
    requires NoOccurrenceBefore(a + pat + b, pat, |a|)
    ensures Replace(a + pat + b, pat, rep) == [a[0]] + Replace(a[1..] + pat + b, pat, rep)
    ensures NoOccurrenceBefore(a[1..] + pat + b, pat, |a| - 1)
  {
    var s := a + pat + b;
    assert s[0..] == s;
    var s' := a[1..] + pat + b;
    assert s[1..] == s';
    forall k | 0 <= k < |a| - 1 && k <= |s'|
      ensures !(pat <= s'[k..])
    {
      assert s'[k..] == s[k + 1..];
    }
    ReplaceCopiesHead(s, pat, rep);
  }

  lemma ConsThenConcat(a: string, x: string, y: string)
    requires a != []
    ensures [a[0]] + (a[1..] + x + y) == a + x + y
  {
    assert a == [a[0]] + a[1..];
  }

  /**
    `Replace` copies everything before the first occurrence, substitutes it,
    and carries on after it: every occurrence is replaced, not only the first.
   */
  lemma {:induction false} ReplaceFirstThenRest(a: string, pat: string, rep: string, b: string)
    requires pat != []
    requires NoOccurrenceBefore(a + pat + b, pat, |a|)
    ensures Replace(a + pat + b, pat, rep) == a + rep + Replace(b, pat, rep)
    decreases |a|
  {
    var tail := Replace(b, pat, rep);
    if a == [] {
      assert a + pat + b == pat + b;
      ReplaceAtStart(pat, rep, b);
    } else {
      var rest := Replace(a[1..] + pat + b, pat, rep);
      assert Replace(a + pat + b, pat, rep) == [a[0]] + rest by {
        ReplaceBeforeOccurrence(a, pat, rep, b);
      }
      assert rest == a[1..] + rep + tail by {
        ReplaceBeforeOccurrence(a, pat, rep, b);
        ReplaceFirstThenRest(a[1..], pat, rep, b);
      }
      ConsThenConcat(a, rep, tail);
    }
  }

  /** Both occurrences of a placeholder are replaced. */
  lemma TwoOccurrencesBothReplaced()
    ensures Replace("~~$1 ~~$1", "~~$1", "x") == "x x"
  {
    assert "~~$1" <= "~~$1 ~~$1";
    assert "~~$1 ~~$1"[4..] == " ~~$1";
    assert " ~~$1"[0] != "~~$1"[0];
    assert " ~~$1"[1..] == "~~$1";
    assert "~~$1"[4..] == "";
  }

  /** A string that contains `q` contains every prefix of `q`. */
  lemma {:induction false} ContainsPrefixOf(s: string, p: string, q: string)
    requires p <= q
    requires Contains(s, q)
    ensures Contains(s, p)
    decreases |s|
  {
    if !(q <= s) {
      ContainsPrefixOf(s[1..], p, q);
    }
  }

  /** Appending characters on the left never hides an occurrence. */
  lemma {:induction false} ContainsInSuffix(s: string, k: nat, p: string)
    requires k <= |s|
    requires Contains(s[k..], p)
    ensures Contains(s, p)
    decreases k
  {
    if k > 0 {
      assert s[1..][k - 1..] == s[k..];
      ContainsInSuffix(s[1..], k - 1, p);
    }
  }

  /** The ASCII digit for `d`. */
  function DigitChar(d: nat): char
    requires d < 10
  {
    (48 + d) as char
  }

  /** `format!("{}", n)` for a non-negative integer: its decimal digits, most significant first. */
  function Decimal(n: nat): (r: string)
    ensures |r| >= 1
    ensures forall c :: c in r ==> '0' <= c <= '9'
  {
    if n < 10 then [DigitChar(n)] else Decimal(n / 10) + [DigitChar(n % 10)]
  }

  /** The number a string of decimal digits denotes, most significant digit first. */
  function DigitsValue(s: string): int
    decreases |s|
  {
    if s == [] then 0 else DigitsValue(s[..|s| - 1]) * 10 + (s[|s| - 1] as int - 48)
  }

  /** `format!("{}", n)` reads back as `n`. */
  lemma {:induction false} DecimalValue(n: nat)
    ensures DigitsValue(Decimal(n)) == n
    decreases n
  {
    if n >= 10 {
      DecimalValue(n / 10);
      var d := Decimal(n);
      assert d[..|d| - 1] == Decimal(n / 10);
    }
  }

  /** Distinct numbers format differently. */
  lemma DecimalInjective(a: nat, b: nat)
    requires Decimal(a) == Decimal(b)
    ensures a == b
  {
    DecimalValue(a);
    DecimalValue(b);
  }
}

=== FILE: structs.dfy ===
/**
  The launch-configuration records of src/winutil/structs.rs: their reading
  from JSON objects and their translation into the native structures, each
  optional field laid over a default native value.
 */
module Structs {
  import opened Wrappers
  import opened Json
  import opened Strings
  import opened FlagTables
  import opened Native

  // ---------------------------------------------------------------------------
  // Shared field readers
  // ---------------------------------------------------------------------------

  /** `key` holds a number `as_u64` accepts. */
  predicate HoldsU64(obj: map<string, Value>, key: string) {
    key in obj && obj[key].JInt? && 0 <= obj[key].i < U64_LIMIT
  }

  /** `v` is the `as u32` of the u64 under `key`, and absent exactly when there is none. */
  predicate ReadsU32(obj: map<string, Value>, key: string, v: Option<U32>) {
    && (v.Some? <==> HoldsU64(obj, key))
    && (v.Some? ==> v.value as int == obj[key].i % 0x1_0000_0000)
  }

  /** `v` is the `as u16` of the u64 under `key`, and absent exactly when there is none. */
  predicate ReadsU16(obj: map<string, Value>, key: string, v: Option<U16>) {
    && (v.Some? <==> HoldsU64(obj, key))
    && (v.Some? ==> v.value as int == obj[key].i % 0x1_0000)
  }

  /** `v` is the `as isize` of the u64 under `key` (two's complement wrap from 2^63), absent exactly when there is none. */
  predicate ReadsIsize(obj: map<string, Value>, key: string, v: Option<int>) {
    && (v.Some? <==> HoldsU64(obj, key))
    && (v.Some? ==> v.value == if obj[key].i < ISIZE_LIMIT then obj[key].i else obj[key].i - USIZE_LIMIT)
  }

  /** `v` is the boolean under `key`, absent exactly when `key` holds no boolean. */
  predicate ReadsBool(obj: map<string, Value>, key: string, v: Option<bool>) {
    && (v.Some? <==> key in obj && obj[key].JBool?)
    && (v.Some? ==> v.value == obj[key].b)
  }

  /** `v` is the string under `key`, absent exactly when `key` holds no string. */
  predicate ReadsString(obj: map<string, Value>, key: string, v: Option<string>) {
    && (v.Some? <==> key in obj && obj[key].JString?)
    && (v.Some? ==> v.value == obj[key].str)
  }

  /** `v` is the OR of the flags listed under `key`, absent exactly when `key` holds no array. */
  ghost predicate ReadsMask(obj: map<string, Value>, key: string, group: FlagGroup, v: Option<bv32>) {
    && (v.Some? <==> key in obj && obj[key].JArray?)
    && (v.Some? ==> v.value == FoldMask(group, obj[key].items))
  }

  /** `json.get(key).and_then(|jv| jv.as_u64()).map(|i| i as u32)` */
  function U32Field(obj: map<string, Value>, key: string): (r: Option<U32>)
    ensures ReadsU32(obj, key, r)
  {
    match Field(obj, key)
    case Some(v) =>
      (match AsU64(v)
       case Some(n) => Some(TruncU32(n))
       case None => None)
    case None => None
  }

  /** `json.get(key).and_then(|jv| jv.as_u64()).map(|i| i as u16)` */
  function U16Field(obj: map<string, Value>, key: string): (r: Option<U16>)
    ensures ReadsU16(obj, key, r)
  {
    match Field(obj, key)
    case Some(v) =>
      (match AsU64(v)
       case Some(n) => Some(TruncU16(n))
       case None => None)
    case None => None
  }

  /** `json.get(key).and_then(|jv| jv.as_u64()).map(|i| i as isize)` */
  function IsizeField(obj: map<string, Value>, key: string): (r: Option<int>)
    ensures ReadsIsize(obj, key, r)
  {
    match Field(obj, key)
    case Some(v) =>
      (match AsU64(v)
       case Some(n) => Some(U64ToIsize(n))
       case None => None)
    case None => None
  }

  /** `json.get(key).and_then(|jv| jv.as_bool())` */
  function BoolField(obj: map<string, Value>, key: string): (r: Option<bool>)
    ensures ReadsBool(obj, key, r)
  {
    match Field(obj, key)
    case Some(v) => AsBool(v)
    case None => None
  }

  /** `json.get(key).and_then(|jv| jv.as_str()).map(|s| s.to_owned())` */
  function StringField(obj: map<string, Value>, key: string): (r: Option<string>)
    ensures ReadsString(obj, key, r)
  {
    match Field(obj, key)
    case Some(v) => AsStr(v)
    case None => None
  }

  /**
    A JSON list of names and raw integers under `key`, OR-folded; absent or
    not an array gives `None`. The mask is the least one covering every
    resolved element, that is, their OR.
   */
  function MaskField(obj: map<string, Value>, key: string, group: FlagGroup): (r: Option<bv32>)
    ensures r.Some? <==> key in obj && obj[key].JArray?
    ensures r.Some? ==> CoversAll(group, obj[key].items, r.value)
    ensures r.Some? ==> forall m :: CoversAll(group, obj[key].items, m) ==> SubMask(r.value, m)
    ensures r.Some? && obj[key].items == [] ==> r.value == 0
  {
    match Field(obj, key)
    case Some(v) =>
      (match AsArray(v)
       case Some(items) =>
         FoldMaskIsLeastOfAll(group, items);
         Some(FoldMask(group, items))
       case None => None)
    case None => None
  }

  /**
    Lay an optional bit mask over the current native value: with
    `append == Some(true)` it is OR-ed on, otherwise it replaces the value.
   */
  function Overlay(current: bv32, v: Option<bv32>, append: Option<bool>): (r: bv32)
    ensures v.None? ==> r == current
    ensures v.Some? && append == Some(true) ==> r == current | v.value
    ensures v.Some? && append != Some(true) ==> r == v.value
  {
    if v.None? then current
    else if append == Some(true) then current | v.value
    else v.value
  }

  /** Set a string pointer field when the string is present and free of NULs; otherwise keep it. */
  function OverlayCStr(current: CStrPtr, s: Option<string>): CStrPtr {
    match s
    case None => current
    case Some(text) => NewCString(text).GetOr(current)
  }

  // ---------------------------------------------------------------------------
  // SecurityAttributes
  // ---------------------------------------------------------------------------

  /** SecurityAttributes (also the shape of the rule file's process and thread attributes). */
  datatype SecurityAttributes = SecurityAttributes(
    securityDescriptor: Option<int>,
    inheritHandle: Option<bool>)

  function DefaultSecurityAttributes(): SecurityAttributes {
    SecurityAttributes(None, None)
  }

  /** `SecurityAttributes::from_json` */
  function SecurityAttributesFromJson(obj: map<string, Value>): (r: SecurityAttributes)
    ensures ReadsIsize(obj, "security_descriptor", r.securityDescriptor)
    ensures ReadsBool(obj, "inherit_handle", r.inheritHandle)
  {
    SecurityAttributes(IsizeField(obj, "security_descriptor"), BoolField(obj, "inherit_handle"))
  }

  /** `SecurityAttributes::as_native` */
  function SecurityAttributesAsNative(sa: SecurityAttributes): (n: SecurityAttributesNative)
    ensures n.nLength == SIZE_OF_SECURITY_ATTRIBUTES
    ensures sa.securityDescriptor.Some? ==> n.securityDescriptor == sa.securityDescriptor.value
    ensures sa.securityDescriptor.None? ==> n.securityDescriptor == ZeroSecurityAttributes().securityDescriptor
    ensures n.inheritHandle == 1 <==> sa.inheritHandle == Some(true)
    ensures n.inheritHandle == 0 || n.inheritHandle == 1
  {
    var base := ZeroSecurityAttributes().(nLength := SIZE_OF_SECURITY_ATTRIBUTES);
    var withDescriptor :=
      match sa.securityDescriptor
      case Some(sd) => base.(securityDescriptor := sd)
      case None => base;
    match sa.inheritHandle
    case Some(ih) => withDescriptor.(inheritHandle := NativeBool(ih))
    case None => withDescriptor
  }

  // ---------------------------------------------------------------------------
  // StartupInformation
  // ---------------------------------------------------------------------------

  /** StartupInformation: every field optional, absence meaning "leave the native default". */
  datatype StartupInformation = StartupInformation(
    desktop: Option<string>,
    title: Option<string>,
    x: Option<U32>,
    y: Option<U32>,
    xSize: Option<U32>,
    ySize: Option<U32>,
    xCountChars: Option<U32>,
    yCountChars: Option<U32>,
    fillAttribute: Option<bv32>,
    fillAttributeAppend: Option<bool>,
    flags: Option<bv32>,
    flagsAppend: Option<bool>,
    showWindow: Option<U16>,
    stdinHandle: Option<int>,
    stdoutHandle: Option<int>,
    stderrHandle: Option<int>)

  /** `StartupInformation::default`: nothing set. */
  function DefaultStartupInformation(): StartupInformation {
    StartupInformation(None, None, None, None, None, None, None, None, None, None, None, None, None, None, None, None)
  }

  /** `StartupInformation::from_json` */
  function StartupInformationFromJson(obj: map<string, Value>): (r: StartupInformation)
    ensures ReadsString(obj, "desktop", r.desktop) && ReadsString(obj, "title", r.title)
    ensures ReadsU32(obj, "x", r.x) && ReadsU32(obj, "y", r.y)
    ensures ReadsU32(obj, "x_size", r.xSize) && ReadsU32(obj, "y_size", r.ySize)
    ensures ReadsU32(obj, "x_count_chars", r.xCountChars) && ReadsU32(obj, "y_count_chars", r.yCountChars)
    ensures ReadsMask(obj, "fill_attribute", FillAttributes, r.fillAttribute)
    ensures ReadsBool(obj, "fill_attribute_append", r.fillAttributeAppend)
    ensures ReadsMask(obj, "flags", StartupFlags, r.flags)
    ensures ReadsBool(obj, "flags_append", r.flagsAppend)
    ensures ReadsU16(obj, "show_window", r.showWindow)
    ensures ReadsIsize(obj, "stdin_handle", r.stdinHandle)
    ensures ReadsIsize(obj, "stdout_handle", r.stdoutHandle)
    ensures ReadsIsize(obj, "stderr_handle", r.stderrHandle)
  {
    StartupInformation(
      StringField(obj, "desktop"),
      StringField(obj, "title"),
      U32Field(obj, "x"),
      U32Field(obj, "y"),
      U32Field(obj, "x_size"),
      U32Field(obj, "y_size"),
      U32Field(obj, "x_count_chars"),
      U32Field(obj, "y_count_chars"),
      MaskField(obj, "fill_attribute", FillAttributes),
      BoolField(obj, "fill_attribute_append"),
      MaskField(obj, "flags", StartupFlags),
      BoolField(obj, "flags_append"),
      U16Field(obj, "show_window"),
      IsizeField(obj, "stdin_handle"),
      IsizeField(obj, "stdout_handle"),
      IsizeField(obj, "stderr_handle"))
  }

  /** An empty object sets nothing. */
  lemma EmptyObjectGivesDefaultStartupInformation()
    ensures StartupInformationFromJson(map[]) == DefaultStartupInformation()
  {
  }

  /** `StartupInformation::as_native`: each present field laid over the sized default block. */
  function StartupInformationAsNative(s: StartupInformation): (n: StartupInfoA)
    ensures n.cb == SIZE_OF_STARTUPINFOA
    ensures n.desktop.CStr? <==> s.desktop.Some? && NulFree(s.desktop.value)
    ensures n.desktop.CStr? ==> n.desktop.text == s.desktop.value
    ensures n.title.CStr? <==> s.title.Some? && NulFree(s.title.value)
    ensures n.title.CStr? ==> n.title.text == s.title.value
    ensures n.x == s.x.GetOr(SizedStartupInfo().x) && n.y == s.y.GetOr(SizedStartupInfo().y)
    ensures n.xSize == s.xSize.GetOr(SizedStartupInfo().xSize) && n.ySize == s.ySize.GetOr(SizedStartupInfo().ySize)
    ensures n.xCountChars == s.xCountChars.GetOr(SizedStartupInfo().xCountChars)
    ensures n.yCountChars == s.yCountChars.GetOr(SizedStartupInfo().yCountChars)
    ensures n.fillAttribute == s.fillAttribute.GetOr(SizedStartupInfo().fillAttribute)
    ensures n.flags == s.flags.GetOr(SizedStartupInfo().flags)
    ensures n.showWindow == s.showWindow.GetOr(SizedStartupInfo().showWindow)
    ensures n.stdInput == s.stdinHandle.GetOr(0) && n.stdOutput == s.stdoutHandle.GetOr(0) && n.stdError == s.stderrHandle.GetOr(0)
  {
    var si := SizedStartupInfo();
    si.(desktop := OverlayCStr(si.desktop, s.desktop),
        title := OverlayCStr(si.title, s.title),
        x := s.x.GetOr(si.x),
        y := s.y.GetOr(si.y),
        xSize := s.xSize.GetOr(si.xSize),
        ySize := s.ySize.GetOr(si.ySize),
        xCountChars := s.xCountChars.GetOr(si.xCountChars),
        yCountChars := s.yCountChars.GetOr(si.yCountChars),
        fillAttribute := Overlay(si.fillAttribute, s.fillAttribute, s.fillAttributeAppend),
        flags := Overlay(si.flags, s.flags, s.flagsAppend),
        showWindow := s.showWindow.GetOr(si.showWindow),
        stdInput := s.stdinHandle.GetOr(si.stdInput),
        stdOutput := s.stdoutHandle.GetOr(si.stdOutput),
        stdError := s.stderrHandle.GetOr(si.stdError))
  }

  /** Since the base block is zero, append mode and replace mode give the same native block. */
  lemma AppendModeIrrelevantOnZeroBase(s: StartupInformation, fillAppend: Option<bool>, flagsAppend: Option<bool>)
    ensures StartupInformationAsNative(s.(fillAttributeAppend := fillAppend, flagsAppend := flagsAppend))
         == StartupInformationAsNative(s)
  {
  }

  /** Only the present fields move away from the sized default block. */
  lemma EmptyStartupInformationGivesSizedDefault()
    ensures StartupInformationAsNative(DefaultStartupInformation()) == SizedStartupInfo()
  {
  }

  /** Two objects that read the same under every key `from_json` consults give the same settings. */
  lemma StartupInformationFromJsonReadsOnlyItsKeys(a: map<string, Value>, b: map<string, Value>)
    requires Field(a, "desktop") == Field(b, "desktop") && Field(a, "title") == Field(b, "title")
    requires Field(a, "x") == Field(b, "x") && Field(a, "y") == Field(b, "y")
    requires Field(a, "x_size") == Field(b, "x_size") && Field(a, "y_size") == Field(b, "y_size")
    requires Field(a, "x_count_chars") == Field(b, "x_count_chars") && Field(a, "y_count_chars") == Field(b, "y_count_chars")
    requires MaskField(a, "fill_attribute", FillAttributes) == MaskField(b, "fill_attribute", FillAttributes)
    requires Field(a, "fill_attribute_append") == Field(b, "fill_attribute_append")
    requires MaskField(a, "flags", StartupFlags) == MaskField(b, "flags", StartupFlags)
    requires Field(a, "flags_append") == Field(b, "flags_append") && Field(a, "show_window") == Field(b, "show_window")
    requires Field(a, "stdin_handle") == Field(b, "stdin_handle") && Field(a, "stdout_handle") == Field(b, "stdout_handle")
    requires Field(a, "stderr_handle") == Field(b, "stderr_handle")
    ensures StartupInformationFromJson(a) == StartupInformationFromJson(b)
  {
  }

  /** Reordering or de-duplicating the `flags` list does not change the native block. */
  lemma StartupFlagsIgnoreListOrder(obj: map<string, Value>, items: seq<Value>)
    requires "flags" in obj && obj["flags"].JArray?
    requires forall e :: e in items <==> e in obj["flags"].items
    ensures StartupInformationAsNative(StartupInformationFromJson(obj["flags" := JArray(items)]))
         == StartupInformationAsNative(StartupInformationFromJson(obj))
  {
    var obj' := obj["flags" := JArray(items)];
    FoldMaskDependsOnlyOnElements(StartupFlags, items, obj["flags"].items);
    assert MaskField(obj', "flags", StartupFlags) == MaskField(obj, "flags", StartupFlags);
    // every other key reads the same value from both objects
    assert Field(obj', "desktop") == Field(obj, "desktop");
    assert Field(obj', "title") == Field(obj, "title");
    assert Field(obj', "x") == Field(obj, "x");
    assert Field(obj', "y") == Field(obj, "y");
    assert Field(obj', "x_size") == Field(obj, "x_size");
    assert Field(obj', "y_size") == Field(obj, "y_size");
    assert Field(obj', "x_count_chars") == Field(obj, "x_count_chars");
    assert Field(obj', "y_count_chars") == Field(obj, "y_count_chars");
    assert Field(obj', "fill_attribute") == Field(obj, "fill_attribute");
    assert MaskField(obj', "fill_attribute", FillAttributes) == MaskField(obj, "fill_attribute", FillAttributes);
    assert Field(obj', "fill_attribute_append") == Field(obj, "fill_attribute_append");
    assert Field(obj', "flags_append") == Field(obj, "flags_append");
    assert Field(obj', "show_window") == Field(obj, "show_window");
    assert Field(obj', "stdin_handle") == Field(obj, "stdin_handle");
    assert Field(obj', "stdout_handle") == Field(obj, "stdout_handle");
    assert Field(obj', "stderr_handle") == Field(obj, "stderr_handle");
    StartupInformationFromJsonReadsOnlyItsKeys(obj', obj);
  }

  // ---------------------------------------------------------------------------
  // CreationExtras
  // ---------------------------------------------------------------------------

  /** CreationExtras */
  datatype CreationExtras = CreationExtras(
    processAttributes: Option<SecurityAttributes>,
    threadAttributes: Option<SecurityAttributes>,
    inheritHandles: Option<bool>,
    creationFlags: Option<bv32>,
    creationFlagsAppend: Option<bool>,
    environment: Option<int>,
    startupInfo: Option<StartupInformation>)

  /** `CreationExtras::default`: nothing set. */
  function DefaultCreationExtras(): CreationExtras {
    CreationExtras(None, None, None, None, None, None, None)
  }

  /** NativeCreationExtras */
  datatype NativeCreationExtras = NativeCreationExtras(
    processAttributes: SecurityAttributesNative,
    threadAttributes: SecurityAttributesNative,
    inheritHandles: bv32,
    creationFlags: bv32,
    environment: int,
    currentDirectory: CStrPtr,
    startupInfo: StartupInfoA)

  /** `NativeCreationExtras::default`: zeroed attributes, no inheritance, no flags, null environment, sized startup block. */
  function DefaultNativeCreationExtras(): NativeCreationExtras {
    NativeCreationExtras(ZeroSecurityAttributes(), ZeroSecurityAttributes(), 0, 0, 0, NullStr, SizedStartupInfo())
  }

  /** `v` is `SecurityAttributes::from_json` of the object under `key`, absent exactly when `key` holds no object. */
  predicate ReadsAttributes(obj: map<string, Value>, key: string, v: Option<SecurityAttributes>) {
    && (v.Some? <==> key in obj && obj[key].JObject?)
    && (v.Some? ==> v.value == SecurityAttributesFromJson(obj[key].fields))
  }

  /** `v` is the i64 under `key` (an `isize` of the same value), absent exactly when `key` holds none. */
  predicate ReadsI64(obj: map<string, Value>, key: string, v: Option<int>) {
    && (v.Some? <==> key in obj && obj[key].JInt? && I64_MIN <= obj[key].i < I64_LIMIT)
    && (v.Some? ==> v.value == obj[key].i)
  }

  /** `v` is `StartupInformation::from_json` of the object under `key`, absent exactly when `key` holds no object. */
  predicate ReadsStartupInformation(obj: map<string, Value>, key: string, v: Option<StartupInformation>) {
    && (v.Some? <==> key in obj && obj[key].JObject?)
    && (v.Some? ==> v.value == StartupInformationFromJson(obj[key].fields))
  }

  /** `json.get(key).and_then(|jv| jv.as_object()).map(SecurityAttributes::from_json)` */
  function SecurityAttributesField(obj: map<string, Value>, key: string): Option<SecurityAttributes> {
    match Field(obj, key)
    case Some(v) =>
      (match AsObject(v)
       case Some(o) => Some(SecurityAttributesFromJson(o))
       case None => None)
    case None => None
  }

  /** `json.get("environment").and_then(|jv| jv.as_i64()).map(|i| i as isize)` */
  function EnvironmentField(obj: map<string, Value>): Option<int> {
    match Field(obj, "environment")
    case Some(v) => AsI64(v)
    case None => None
  }

  /** `json.get("startup_info").and_then(|jv| jv.as_object()).map(StartupInformation::from_json)` */
  function StartupInformationField(obj: map<string, Value>): Option<StartupInformation> {
    match Field(obj, "startup_info")
    case Some(v) =>
      (match AsObject(v)
       case Some(o) => Some(StartupInformationFromJson(o))
       case None => None)
    case None => None
  }

  /** `CreationExtras::from_json` */
  function CreationExtrasFromJson(obj: map<string, Value>): (r: CreationExtras)
    ensures obj == map[] ==> r == DefaultCreationExtras()
    ensures ReadsAttributes(obj, "process_attributes", r.processAttributes)
    ensures ReadsAttributes(obj, "thread_attributes", r.threadAttributes)
    ensures ReadsBool(obj, "inherit_handles", r.inheritHandles)
    ensures ReadsMask(obj, "creation_flags", CreationFlags, r.creationFlags)
    ensures ReadsBool(obj, "creation_flags_append", r.creationFlagsAppend)
    ensures ReadsI64(obj, "environment", r.environment)
    ensures ReadsStartupInformation(obj, "startup_info", r.startupInfo)
  {
    DefaultCreationExtras().(
      processAttributes := SecurityAttributesField(obj, "process_attributes"),
      threadAttributes := SecurityAttributesField(obj, "thread_attributes"),
      inheritHandles := BoolField(obj, "inherit_handles"),
      creationFlags := MaskField(obj, "creation_flags", CreationFlags),
      creationFlagsAppend := BoolField(obj, "creation_flags_append"),
      environment := EnvironmentField(obj),
      startupInfo := StartupInformationField(obj))
  }

  /** `CreationExtras::as_native`: each present part replaces the corresponding default. */
  function CreationExtrasAsNative(ce: CreationExtras): (n: NativeCreationExtras)
    ensures ce.processAttributes.None? ==> n.processAttributes == DefaultNativeCreationExtras().processAttributes
    ensures ce.processAttributes.Some? ==> n.processAttributes == SecurityAttributesAsNative(ce.processAttributes.value)
    ensures ce.threadAttributes.None? ==> n.threadAttributes == DefaultNativeCreationExtras().threadAttributes
    ensures ce.threadAttributes.Some? ==> n.threadAttributes == SecurityAttributesAsNative(ce.threadAttributes.value)
    ensures n.inheritHandles == 1 <==> ce.inheritHandles == Some(true)
    ensures n.inheritHandles == 0 || n.inheritHandles == 1
    ensures n.creationFlags == ce.creationFlags.GetOr(DefaultNativeCreationExtras().creationFlags)
    ensures n.environment == ce.environment.GetOr(DefaultNativeCreationExtras().environment)
    ensures n.currentDirectory == NullStr
    ensures ce.startupInfo.None? ==> n.startupInfo == SizedStartupInfo()
    ensures ce.startupInfo.Some? ==> n.startupInfo == StartupInformationAsNative(ce.startupInfo.value)
  {
    var np := DefaultNativeCreationExtras();
    np.(processAttributes := if ce.processAttributes.Some? then SecurityAttributesAsNative(ce.processAttributes.value) else np.processAttributes,
        threadAttributes := if ce.threadAttributes.Some? then SecurityAttributesAsNative(ce.threadAttributes.value) else np.threadAttributes,
        inheritHandles := if ce.inheritHandles.Some? then NativeBool(ce.inheritHandles.value) else np.inheritHandles,
        creationFlags := ce.creationFlags.GetOr(np.creationFlags),
        environment := ce.environment.GetOr(np.environment),
        startupInfo := if ce.startupInfo.Some? then StartupInformationAsNative(ce.startupInfo.value) else np.startupInfo)
  }

  /** `creation_flags_append` is read but never consulted: the flags always replace the default. */
  lemma CreationFlagsAppendIgnored(ce: CreationExtras, append: Option<bool>)
    ensures CreationExtrasAsNative(ce.(creationFlagsAppend := append)) == CreationExtrasAsNative(ce)
  {
  }

  /** An empty configuration object yields exactly the documented native default. */
  lemma EmptyCreationExtrasGiveDefault()
    ensures CreationExtrasAsNative(CreationExtrasFromJson(map[])) == DefaultNativeCreationExtras()
  {
  }
}

=== FILE: winproc.dfy ===
/**
  src/winproc.rs: building the process-creation parameters from a resolved
  command, and the checks `invoke_command` makes before handing them to the
  operating system. Whether the command path exists, its extension and
  whether it is absolute are supplied as facts about the file system; the
  `CreateProcessA` call is an oracle from parameters to its report.
 */
module WinProc {
  import opened Wrappers
  import opened Json
  import opened Strings
  import opened FlagTables
  import opened Native
  import opened Structs
  import opened Rules

  /** ProcessCreationParameters */
  datatype ProcessCreationParameters = ProcessCreationParameters(
    command: CStrPtr,
    arguments: CStrPtr,
    cwd: CStrPtr,
    processAttributes: SecurityAttributesNative,
    threadAttributes: SecurityAttributesNative,
    inheritHandles: bv32,
    creationFlags: bv32,
    environment: int,
    currentDirectory: CStrPtr,
    startupInfo: StartupInfoA)

  /** `ProcessCreationParameters::default` */
  function DefaultParameters(): (p: ProcessCreationParameters)
    ensures p.command == NullStr && p.arguments == NullStr && p.cwd == NullStr && p.currentDirectory == NullStr
    ensures p.startupInfo == StartupInformationAsNative(DefaultStartupInformation())
    ensures var d := DefaultNativeCreationExtras();
            && p.processAttributes == d.processAttributes && p.threadAttributes == d.threadAttributes
            && p.inheritHandles == d.inheritHandles && p.creationFlags == d.creationFlags
            && p.environment == d.environment && p.startupInfo == d.startupInfo
  {
    ProcessCreationParameters(NullStr, NullStr, NullStr, ZeroSecurityAttributes(), ZeroSecurityAttributes(),
                              0, 0, 0, NullStr, SizedStartupInfo())
  }

  /** The string field whose interior NUL makes `from_rule` panic. */
  datatype NulField = PathField | ArgumentsField | CwdField

  /** An optional string made native; `None` stays null, an interior NUL is an error. */
  function OptionalCString(s: Option<string>): Option<CStrPtr> {
    match s
    case None => Some(NullStr)
    case Some(text) => NewCString(text)
  }

  /** The attributes in the rule's process or thread slot made native; absent gives the all-zero default. */
  function RuleAttributes(attributes: Option<SecurityAttributes>): SecurityAttributesNative {
    match attributes
    case None => ZeroSecurityAttributes()
    case Some(a) => SecurityAttributesAsNative(a)
  }

  /**
    `ProcessCreationParameters::from_rule`. A `Failure` is the panic on an
    interior NUL in the path, the arguments or the working directory, checked
    in that order. The startup block computed from `extras` is never stored,
    so the result keeps the default startup block.
   */
  function FromRule(rule: Command): (r: Result<ProcessCreationParameters, NulField>)
    ensures r.Success? <==>
              && NulFree(rule.path)
              && (rule.arguments.Some? ==> NulFree(rule.arguments.value))
              && (rule.cwd.Some? ==> NulFree(rule.cwd.value))
    ensures r == Failure(PathField) <==> !NulFree(rule.path)
    ensures r == Failure(ArgumentsField) <==>
              NulFree(rule.path) && rule.arguments.Some? && !NulFree(rule.arguments.value)
    ensures r == Failure(CwdField) <==>
              && NulFree(rule.path)
              && (rule.arguments.Some? ==> NulFree(rule.arguments.value))
              && rule.cwd.Some? && !NulFree(rule.cwd.value)
    ensures r.Success? ==>
              && r.value.command == CStr(rule.path)
              && (rule.arguments.Some? ==> r.value.arguments == CStr(rule.arguments.value))
              && (rule.arguments.None? ==> r.value.arguments == NullStr)
              && (rule.cwd.Some? ==> r.value.cwd == CStr(rule.cwd.value))
              && (rule.cwd.None? ==> r.value.cwd == NullStr)
              && r.value.startupInfo == SizedStartupInfo()
              && r.value.environment == 0
              && r.value.currentDirectory == NullStr
              && (r.value.inheritHandles == 1 <==> rule.inheritHandles == Some(true))
              && (r.value.inheritHandles == 0 || r.value.inheritHandles == 1)
              && (rule.processAttributes.None? ==> r.value.processAttributes.nLength == 0)
              && (rule.threadAttributes.None? ==> r.value.threadAttributes.nLength == 0)
              && (rule.creationFlags.None? ==> r.value.creationFlags == 0)
              && (rule.creationFlags.Some? ==> CoversAll(CreationFlags, rule.creationFlags.value, r.value.creationFlags))
  {
    var pcp := DefaultParameters();
    match NewCString(rule.path)
    case None => Failure(PathField)
    case Some(command) =>
      match OptionalCString(rule.arguments)
      case None => Failure(ArgumentsField)
      case Some(arguments) =>
        match OptionalCString(rule.cwd)
        case None => Failure(CwdField)
        case Some(cwd) =>
          Success(pcp.(
            command := command,
            arguments := arguments,
            cwd := cwd,
            threadAttributes := RuleAttributes(rule.threadAttributes),
            processAttributes := RuleAttributes(rule.processAttributes),
            inheritHandles := if rule.inheritHandles.Some? then NativeBool(rule.inheritHandles.value) else pcp.inheritHandles,
            creationFlags := if rule.creationFlags.Some? then FoldMask(CreationFlags, rule.creationFlags.value) else pcp.creationFlags))
  }

  /**
    The startup block `from_rule` computes from `extras` and then drops:
    every present field set, interior-NUL strings skipped, the three lists
    OR-folded, the `SW_*` codes cut to 16 bits. There is no append mode.
   */
  function ExtrasStartupInfo(extras: Extras): StartupInfoA {
    var native := SizedStartupInfo();
    native.(
      desktop := OverlayCStr(native.desktop, extras.desktop),
      title := OverlayCStr(native.title, extras.title),
      x := extras.x.GetOr(native.x),
      y := extras.y.GetOr(native.y),
      xSize := extras.xSize.GetOr(native.xSize),
      ySize := extras.ySize.GetOr(native.ySize),
      xCountChars := extras.xCountChars.GetOr(native.xCountChars),
      yCountChars := extras.yCountChars.GetOr(native.yCountChars),
      fillAttribute := if extras.fillAttribute.Some? then FoldMask(FillAttributes, extras.fillAttribute.value) else native.fillAttribute,
      flags := if extras.flags.Some? then FoldMask(StartupFlags, extras.flags.value) else native.flags,
      showWindow := if extras.showWindow.Some? then MaskToU16(FoldMask(ShowWindow, extras.showWindow.value)) else native.showWindow)
  }

  /** The same settings expressed as a `StartupInformation`, lists already folded and append modes unset. */
  function ExtrasAsStartupInformation(extras: Extras): StartupInformation {
    DefaultStartupInformation().(
      desktop := extras.desktop,
      title := extras.title,
      x := extras.x,
      y := extras.y,
      xSize := extras.xSize,
      ySize := extras.ySize,
      xCountChars := extras.xCountChars,
      yCountChars := extras.yCountChars,
      fillAttribute := if extras.fillAttribute.Some? then Some(FoldMask(FillAttributes, extras.fillAttribute.value)) else None,
      flags := if extras.flags.Some? then Some(FoldMask(StartupFlags, extras.flags.value)) else None,
      showWindow := if extras.showWindow.Some? then Some(MaskToU16(FoldMask(ShowWindow, extras.showWindow.value))) else None)
  }

  /** The inline extras translation agrees with `StartupInformation::as_native`. */
  lemma ExtrasAgreeWithStartupInformation(extras: Extras)
    ensures ExtrasStartupInfo(extras) == StartupInformationAsNative(ExtrasAsStartupInformation(extras))
  {
  }

  /** Whatever `extras` holds, `from_rule` produces the same parameters. */
  lemma FromRuleIgnoresExtras(rule: Command, extras: Option<Extras>)
    ensures FromRule(rule.(extras := extras)) == FromRule(rule)
  {
  }

  /** The launch-relevant parts of `from_rule` are those of `CreationExtras::as_native` for the same settings. */
  lemma FromRuleAgreesWithCreationExtras(rule: Command)
    requires FromRule(rule).Success?
    ensures var ce := CreationExtrasAsNative(DefaultCreationExtras().(
              processAttributes := rule.processAttributes,
              threadAttributes := rule.threadAttributes,
              inheritHandles := rule.inheritHandles,
              creationFlags := if rule.creationFlags.Some? then Some(FoldMask(CreationFlags, rule.creationFlags.value)) else None));
            var p := FromRule(rule).value;
            && p.processAttributes == ce.processAttributes
            && p.threadAttributes == ce.threadAttributes
            && p.inheritHandles == ce.inheritHandles
            && p.creationFlags == ce.creationFlags
            && p.environment == ce.environment
            && p.startupInfo == ce.startupInfo
  {
  }

  datatype CreateProcessError =
    | CommandNotExecutable(path: string)
    | CommandDoesNotExist(path: string)
    | CommandNotAbsolute(path: string)

  /** What the file system says about the command path: `exists()`, `extension()`, `is_absolute()`. */
  datatype PathFacts = PathFacts(present: bool, extension: Option<string>, absolute: bool)

  /** PROCESS_INFORMATION */
  datatype ProcessInformation = ProcessInformation(process: int, thread: int, processId: bv32, threadId: bv32)

  /** What `CreateProcessA` hands back: its BOOL status and the filled process information. */
  datatype SpawnReport = SpawnReport(status: bv32, info: ProcessInformation)

  /** The outcome of `invoke_command`: a panic inside `from_rule`, or its returned `Result`. */
  datatype Invocation = Panicked(field: NulField) | Returned(result: Result<ProcessInformation, CreateProcessError>)

  /** `extension().map_or(false, |ext| ext.ends_with("exe"))`: case-sensitive, and no extension fails. */
  predicate LooksExecutable(extension: Option<string>) {
    extension.Some? && EndsWith(extension.value, "exe")
  }

  /**
    `invoke_command`: parameters first (so a NUL panics before any check),
    then existence, then the extension, then absoluteness; the process is
    reported as launched whatever status `CreateProcessA` returns.
   */
  function InvokeCommand(rule: Command, facts: PathFacts, spawn: ProcessCreationParameters -> SpawnReport): (r: Invocation)
    ensures r.Panicked? <==> FromRule(rule).Failure?
    ensures r == Returned(Failure(CommandDoesNotExist(rule.path))) <==> FromRule(rule).Success? && !facts.present
    ensures r == Returned(Failure(CommandNotExecutable(rule.path))) <==>
              FromRule(rule).Success? && facts.present && !LooksExecutable(facts.extension)
    ensures r == Returned(Failure(CommandNotAbsolute(rule.path))) <==>
              FromRule(rule).Success? && facts.present && LooksExecutable(facts.extension) && !facts.absolute
    ensures r.Returned? && r.result.Success? <==>
              FromRule(rule).Success? && facts.present && LooksExecutable(facts.extension) && facts.absolute
    ensures r.Returned? && r.result.Success? ==> r.result.value == spawn(FromRule(rule).value).info
  {
    match FromRule(rule)
    case Failure(field) => Panicked(field)
    case Success(params) =>
      if !facts.present then Returned(Failure(CommandDoesNotExist(rule.path)))
      else if !LooksExecutable(facts.extension) then Returned(Failure(CommandNotExecutable(rule.path)))
      else if !facts.absolute then Returned(Failure(CommandNotAbsolute(rule.path)))
      else Returned(Success(spawn(params).info))
  }

  /** A failed `CreateProcessA` (status 0) is reported exactly like a successful one. */
  lemma SpawnStatusIgnored(rule: Command, facts: PathFacts, spawn: ProcessCreationParameters -> SpawnReport, other: ProcessCreationParameters -> SpawnReport)
    requires forall p :: spawn(p).info == other(p).info
    ensures InvokeCommand(rule, facts, spawn) == InvokeCommand(rule, facts, other)
  {
  }

  /** The extension test is a case-sensitive suffix test. */
  lemma ExecutableExtensionExamples()
    ensures LooksExecutable(Some("exe"))
    ensures LooksExecutable(Some("notexe"))
    ensures !LooksExecutable(Some("EXE"))
    ensures !LooksExecutable(Some("bat"))
    ensures !LooksExecutable(None)
  {
  }
}

=== FILE: wrappers.dfy ===
/** Option and Result, the two failure-carrying shapes the modelled Rust code uses. */
module Wrappers {

  /** Rust's `Option<T>`. */
  datatype Option<+T> = None | Some(value: T) {

    /** `unwrap_or`: the wrapped value, or `default` when there is none. */
    function GetOr(default: T): T {
      match this
      case Some(v) => v
      case None => default
    }
  }

  /** Rust's `Result<T, E>`. */
  datatype Result<+T, +E> = Success(value: T) | Failure(error: E) {

    /** `unwrap_or_else(|_| default)`: the success value, or `default` on any error. */
    function GetOr(default: T): T {
      match this
      case Success(v) => v
      case Failure(_) => default
    }
  }
}
